=== FILE: README.md ===
# xml2js-parser tree builder, modelled in Dafny

This project models the `Parser` class of xml2js-parser. The class turns the callbacks of
an XML tokenizer into a plain JavaScript object tree. It has two copies:

- `index.js` is the reference.
- `lib/xml2js.js` is an older copy that keeps its options under `this.options`.

The two copies behave the same except for the initial value of `emptyStr`, and for a root
element named `__proto__` (see `Driver.FinishRoot` under "## Left out"). The model
covers them with one parameter, `Options.Edition`: `Current` for `index.js` and `Legacy`
for `lib/xml2js.js`.

Modules, in dependency order:

- `Values`: the JavaScript values of the tree. A value is undefined, null, a boolean, a
  string, an array, or an object modelled as a string-keyed map. This module also covers
  `Object.keys` counting and `Object.assign({}, array)`.
- `Text`: JavaScript's `\s` class, `trim`, the `/\s{2,}/g` collapse, ASCII lower-casing, and
  the removal of literal `\n` pairs.
- `Processors`: `processName` (the processor chain, a left fold), the built-in `PROCESSORS`
  except `parseNumbers`, `stripBOM`, and the input checks of `parseString`.
- `Options`: `DEFAULTS`, and the constructor's derivation of `xmlnskey` and of the
  `normalizeTags` tag processor.
- `Frames`: the element frame kept on the stack, `_assignOrPush`, `_openTag`, `_onText` and
  `_onCData`.
- `Collapse`: the value `_closeTag` computes:
  1. the text stage;
  2. the empty-element substitution;
  3. the validator call with its path;
  4. the `explicitChildren` reshaping, both keyed and order-preserving.
- `Driver`: the parser as a step function over tokenizer callbacks. The state holds the frame
  stack, `resultObject`, and the `ended` and `errThrown` flags. Each step also returns the
  list of emitted `end` and `error` events. This module also models `parseString`, with the
  tokenizer as a parameter.
- `Scenarios`: small documents, mostly from the repository's tests, run through the whole
  model as the callbacks a strict tokenizer makes for them. A few are callback sequences the
  tokenizer never sends, and their rows say so.

A JavaScript exception raised inside a handler (a `TypeError`) ends the run. It is handled
like the catch block of `parseString`: it is reported as an error unless an error was
already reported or the document already ended.

The emptiness test of `_closeTag` is modelled as written (`Collapse.NodeValue`), so the
driver replaces a boolean value by `emptyStr` and faults on a null or undefined one. The
evidently intended rule is `Collapse.NodeValueCorrected`; the two agree whenever the value
processors keep strings strings (`Collapse.NodeValueAgrees`).

In callback mode the callback receives the first emitted event (`Driver.Deliver`). The
listeners reset the parser, so later events reach no one.

## Model

| member | source | states |
|---|---|---|
| Values.KeyCount | index.js:212 | `Object.keys(v).length`: none for null and undefined (it throws), zero for a boolean, otherwise zero exactly for an empty string, array or object |
| Values.IndexKeyed | index.js:242 | copying an array into an object gives exactly the index names as keys, each holding the item at that index |
| Values.NatToStringInjective | index.js:242 | different indices have different decimal names, so no item of the copy is lost |
| Text.Trim | index.js:201-203 | `trim` returns text that neither starts nor ends with whitespace and that the input holds between a blank prefix and a blank suffix; it keeps every non-space character, is empty exactly for blank input, and leaves trimmed input alone |
| Text.TrimUnique | index.js:201-203 | those properties determine `trim`: blank text, trimmed text and blank text in a row trim to the trimmed text |
| Text.CollapseRuns | index.js:205 | replacing runs of two or more whitespace characters by one space keeps every non-space character, leaves no two adjacent spaces, keeps whether the text starts with whitespace, and changes nothing where there were no adjacent spaces |
| Text.CollapseSplit | index.js:205 | a non-space character is kept and splits the text: each side is collapsed on its own |
| Text.CollapseBlank | index.js:205 | a blank text of two or more characters becomes one space, and a shorter one is kept; with `CollapseSplit` this determines the collapse |
| Text.NormalizeSpace | index.js:204-206 | the `normalize` text treatment yields trimmed text with no adjacent whitespace, the same non-space characters, empty exactly for blank input |
| Text.NormalizeSpaceIdempotent | index.js:204-206 | normalizing text a second time changes nothing |
| Text.Lower | index.js:37 | lower-casing keeps the length and maps each character on its own |
| Text.RemoveEscapedNewlines | index.js:268 | removing literal backslash-n pairs never lengthens the text and changes nothing when no backslash is followed by `n` |
| Text.RemoveEscapedNewlinesAppend | index.js:268 | the removal works piece by piece wherever no backslash-n pair straddles the cut |
| Text.RemoveEscapedNewlinesPair | index.js:268 | each pair is removed and the text on either side is treated on its own; with the unchanged case this determines the removal |
| Processors.ProcessNameLoop | lib/xml2js.js:287-292 | the processor loop computes the left fold `ProcessName` over the list |
| Processors.ProcessNameAppend | lib/xml2js.js:287-292 | running a concatenated chain is running the first part, then the second |
| Processors.ProcessNameOrder | lib/xml2js.js:287-292 | the empty chain is the identity, and `[f, g]` applies `f` first |
| Processors.ProcessNameKeepsStrings | lib/xml2js.js:287-292 | a chain of processors that each map strings to strings maps a string to a string |
| Processors.Normalize | lib/xml2js.js:37 | `normalize` keeps the length, leaves no upper-case ASCII letter, and changes only upper-case letters, by +32 |
| Processors.NormalizeIdempotent | lib/xml2js.js:37 | lower-casing twice is lower-casing once |
| Processors.FirstCharLowerCase | lib/xml2js.js:38 | `firstCharLowerCase` lower-cases the first character and keeps the rest |
| Processors.StripPrefix | lib/xml2js.js:33-39 | `stripPrefix` leaves names starting with `xmlns` alone; otherwise it removes a prefix that ends in `:` and has no line break, and the first line left has no `:` |
| Processors.StripPrefixIdempotent | lib/xml2js.js:33-39 | stripping twice is stripping once |
| Processors.ParseBooleans | lib/xml2js.js:34-41 | exactly the case-insensitive `true` and `false` become booleans, with the matching value; every other string comes back unchanged |
| Processors.StripBOM | lib/xml2js.js:306-308 | one leading U+FEFF is removed; any other input is returned unchanged |
| Processors.BlankCheckIgnoresBOM | index.js:130-131 | the blank check gives the same answer before and after the byte-order mark is stripped |
| Processors.Precheck | index.js:128-131 | a missing input fails, a blank input ends at once, and anything else is fed without its byte-order mark and is not blank |
| Options.Derive | lib/xml2js.js:50-61 | `xmlnskey` is `attrkey + 'ns'` exactly when `xmlns` is on; with `normalizeTags` the tag chain lower-cases first and then runs the given processors; nothing else changes |
| Options.NormalizeRunsFirst | lib/xml2js.js:56-59 | putting `normalize` in front of a chain applies it before the rest |
| Options.DefaultSettings | index.js:5-31 | a parser built without options has the defaults and no `xmlnskey` |
| Frames.AssignOrPush | index.js:148-155 | a new key gets `[v]` with `explicitArray` and `v` without; an existing key becomes its old value as an array with `v` appended; no other key changes |
| Frames.ValuesForMembers | index.js:160-166 | every value listed for a name is paired with it, and the list is empty exactly when the name does not occur |
| Frames.AssignAllGroups | index.js:160-166 | with `explicitArray`, merged attributes end up as one array per name, holding that name's values in order |
| Frames.AssignAllGroupsScalar | index.js:148-155 | for one name without `explicitArray`: it is present exactly when it occurs; seen once it keeps its bare value; repeated, it holds the first value's items (or the first value) followed by the later values, which is the list of its values when the first is not an array |
| Frames.AssignAllScalar | index.js:148-155 | the same for every merged name at once |
| Frames.OverwriteLastWins | index.js:168 | stored under `attrkey`, each attribute name keeps its last value, and only names that occur are present |
| Frames.OpenFrame | index.js:156-180 | a new frame has empty text, the processed tag name, and the `xmlnskey` pair when `xmlns` is on; the attribute object exists only with attributes, without `ignoreAttrs` and without `mergeAttrs`, and keeps each name's last value; merged attributes are grouped per name into arrays with `explicitArray`, and kept bare when seen once and gathered into an array when repeated without it |
| Frames.TextChild | index.js:270-274 | the `__text__` pseudo-child has exactly the keys `#name` and `charkey`; it holds the raw text, or under `normalize` the collapsed and trimmed text, which has no outer or adjacent whitespace |
| Frames.OnText | index.js:263-279 | text is appended to the top frame only; nothing happens without an open element; other frames and slots are untouched; a pseudo-child is appended exactly when one is wanted |
| Frames.WantsTextChildIff | index.js:267-268 | a pseudo-child is wanted exactly when the three modes are on and either white text is included or the text without `\n` pairs is not blank |
| Frames.OnCData | index.js:281-284 | CDATA is handled as text, and in addition the top frame is marked as CDATA |
| Collapse.Rest | index.js:183-193 | the closed element's keys are its children, merged attributes, attribute object, namespace, ordered children, and `#name` only in order-preserving child mode |
| Collapse.PrepareText | index.js:201-206 | text after `trim`/`normalize` keeps its non-space characters, is trimmed when either is on, is unchanged when neither is on, and has no adjacent whitespace under `normalize` |
| Collapse.PrepareTextIdempotent | index.js:201-206 | preparing text twice is preparing it once |
| Collapse.ShapeText | index.js:197-211 | blank text outside CDATA is dropped and becomes `emptyStr`; otherwise the processed text is stored under `charkey`, every other key is kept, and an element with nothing else becomes its text unless `explicitCharkey` |
| Collapse.EmptyStr | index.js:195-199 | `emptyStr` is the dropped blank text, or else `''` in `index.js` and `undefined` in `lib/xml2js.js` |
| Collapse.SubstituteEmpty | index.js:212-214 | a value without content becomes `emptyTag`, or `emptyStr` when `emptyTag` is `''`; any other value is kept |
| Collapse.SubstituteEmptyAsWritten | index.js:212-214 | the substitution as written: null and undefined throw, booleans are replaced, and strings, arrays and objects are treated as the corrected rule treats them |
| Collapse.AsWrittenDropsBooleans | index.js:207-214 | with `parseBooleans` as value processor, `true` is replaced by `''` as written but kept by the corrected rule |
| Collapse.NodeValue | index.js:195-214 | as written: a null or undefined value throws; a value with no keys (an empty string, array or object, or a boolean) becomes `emptyTag`, or `emptyStr` when `emptyTag` is `''`; a value with keys passes through; an element with no keys and blank text becomes its blank text |
| Collapse.NodeValueCorrected | index.js:195-214 | the same value under the corrected rule: an element with no keys and blank text becomes `emptyTag` or that text, and a value with content passes through |
| Collapse.NodeValueAgrees | index.js:207-214 | the code as written and the corrected rule give the same value whenever every value processor maps strings to strings |
| Collapse.ShapeTextKeepsStrings | index.js:207-210 | under such processors the text stage yields a string, an array or an object |
| Collapse.TextOnlyElement | index.js:197-214 | an element holding only kept text becomes that text after preparation; text that ends up empty is treated as an empty element |
| Collapse.EditionsDifferOnlyOnEmptyKeptText | lib/xml2js.js:171-199 | the two copies give the same element value except when kept text ends up without keys (an empty string, or a boolean from the value processors) and `emptyTag` is `''`; there `index.js` gives `''` and `lib/xml2js.js` gives `undefined` |
| Collapse.XPath | index.js:217 | the validator path starts with `/` |
| Collapse.XPathOfChild | index.js:217 | a child's path is its parent's path, then `/` and its own name |
| Collapse.XPathOfRoot | index.js:217 | the root's path is `/` and its name |
| Collapse.Validate | index.js:216-223 | with no validator the value is kept; an accepted value replaces it; a thrown error is reported and the value is kept |
| Collapse.Existing | index.js:219 | the validator's current value is what the parent holds under the name, and undefined otherwise |
| Collapse.Separate | index.js:226-239 | keyed reshaping keeps only attributes, and text unless `charsAsChildren`, on top; `childkey` is written exactly when something else remains, and holds exactly the other keys |
| Collapse.FlattenSeparate | index.js:226-239 | keyed reshaping loses nothing: merging the `childkey` object back gives the original element |
| Collapse.Reshape | index.js:225-249 | without order preservation objects are separated, arrays go under `childkey`, and null throws; with it, the parent gains the still-named element (an array as its index-keyed copy), and the element then loses its name and collapses to its text, while an array stays as it is; a root is left alone; non-objects are untouched |
| Driver.Fail | index.js:138-145 | an exception is reported as one error exactly when no error was reported and the document has not ended; `errThrown` is then raised unless the document ended, and the run stops with stack, result and `ended` unchanged |
| Driver.Close | index.js:182-261 | closing with no open element throws, and so does a null or undefined value at the emptiness test; otherwise the validated, reshaped value is put into the reshaped parent by `_assignOrPush` under the element's name and the parent becomes the top frame, or at the root it becomes the result, wrapped under its name with `explicitRoot`, `ended` is set and `end` is emitted; a validator error comes first and a reshaping fault stops the run |
| Driver.Conclude | index.js:225-260 | after reshaping, a fault stops the run and is reported after any validator error; otherwise the parent, with the value assigned or pushed under the element's name, replaces the two top frames, or the root's value (wrapped with `explicitRoot`) becomes the result and ends the document; only a fault sets the halt |
| Driver.Attach | index.js:251-252 | the parent with the closed element's value assigned or pushed under its name replaces the two top frames; the frames below and the flags are untouched and nothing is emitted beyond the validator's error |
| Driver.FinishRoot | index.js:253-260 | the root's value, wrapped under its name with `explicitRoot`, becomes the result, `ended` is set and `end` is emitted with it |
| Driver.RejectionReportedFirst | index.js:216-223 | a validator error is the first event of the close that met it |
| Driver.Validated | index.js:216-223 | the validator sees the element's path, the parent's current value and the element's value; its accepted value is used, and after a validator error the value is kept |
| Driver.Step | index.js:109-114 | every callback, including `_onEnd` (index.js:286-291) and `_onError` (index.js:293-299): nothing after an exception; `_onEnd` emits `end` only if not already ended (a later root close still emits it); only the first tokenizer error is reported; flags only rise together with an event |
| Driver.Run | index.js:137 | a run emits at most two events per callback, and the flags never fall |
| Driver.GuardedCountZero | index.js:293-299 | the count of events that pass the `errThrown` guard is zero exactly when none of them is a tokenizer error or an exception |
| Driver.GuardedAtMostOnce | index.js:293-299 | the `errThrown` guard lets at most one tokenizer error or exception through, and none once one was reported |
| Driver.NoFaultAfterEnd | index.js:139-144 | after the document has ended, exceptions are not reported as errors |
| Driver.EndOfInputAnswers | index.js:286-291 | a run that reaches the end of input emits at least one event |
| Driver.ParseString | index.js:128-137 | missing input emits an error; blank input emits `end` with null; any other input is tokenized without its byte-order mark, and the tokenizer is closed |
| Driver.ParseStringAnswers | index.js:128-145 | for any input and any tokenizer, `parseString` emits at least one event and at most one guarded error |
| Driver.Deliver | index.js:117-127 | the callback receives the first emitted event, and receives nothing exactly when no event was emitted |
| Driver.CallbackAlwaysCalled | index.js:117-127 | the callback is always called |
| Scenarios.EmptyRoot | index.js:195-260 | `<root></root>` gives `{root: ''}` |
| Scenarios.NestedText | index.js:182-260 | `<xml><foo>bar</foo></xml>` gives `{xml: {foo: ['bar']}}` |
| Scenarios.EmptyCDataCurrent | index.js:195-214 | an empty CDATA element, if the tokenizer reports the empty section, gives `''` |
| Scenarios.EmptyCDataLegacy | lib/xml2js.js:171-199 | the same callbacks give `undefined` in the older copy |
| Scenarios.TrimmedSpaceCDataCurrent | index.js:195-214 | `<t><![CDATA[ ]]></t>` with `trim: true` gives `''`: the CDATA space is kept, trimmed to nothing, and replaced by `emptyStr` |
| Scenarios.TrimmedSpaceCDataLegacy | lib/xml2js.js:171-199 | the same document gives `undefined` in the older copy |
| Scenarios.SpaceCData | index.js:197-211 | a CDATA section holding a space keeps the space |
| Scenarios.LoneElement | index.js:156-180 | a document of one empty element, with neither validator nor child reshaping, ends with that element's value under its name |
| Scenarios.LoneCData | index.js:281-284 | the same holds for one element holding one CDATA section, which ends up in its text with the CDATA mark |
| Scenarios.EmptyTagNull | index.js:212-214 | `emptyTag: null` turns an empty element into null |
| Scenarios.BooleanTextDropped | index.js:207-214 | as written, `<flag>true</flag>` with `parseBooleans` gives `{flag: ''}` |
| Scenarios.BooleanTextDroppedLegacy | lib/xml2js.js:190-199 | the older copy gives `{flag: undefined}` for the same document |
| Scenarios.NullValueFaults | index.js:212 | a value processor returning null makes the close throw: one error is reported and nothing follows |
| Scenarios.ValidationErrorDelivered | index.js:216-223 | a validator that throws makes the callback receive its error |
| Scenarios.UnclosedRoot | index.js:286-299 | a tokenizer complaint is reported first, and the end of input still emits `end` with null |
| Scenarios.StrayClose | index.js:183-184 | a close callback with no open element, which a strict tokenizer never sends, makes `_closeTag` throw; the catch at index.js:138-141 reports it once, and the run stops |
| Scenarios.StrayCloseTag | index.js:293-299 | what a strict tokenizer sends for a stray `</a>`: the unmatched closing tag is reported as an error, the tag passed on as text is ignored with no open element, and the end of input still emits `end` with null |
| Scenarios.NoElements | index.js:286-291 | a document without elements ends with `null` |
| Scenarios.BlankAndMissingInput | index.js:128-130 | blank input gives `end` with null and missing input gives an error |
| Scenarios.ParseBooleansExamples | lib/xml2js.js:41 | `parseBooleans` turns `true` and `false` in any of the tested spellings into booleans |
| Scenarios.ParseBooleansKeepsOthers | lib/xml2js.js:41 | `parseBooleans` leaves the other tested words as strings |
| Scenarios.NameProcessorExamples | lib/xml2js.js:37-38 | `normalize` and `firstCharLowerCase` on the words of the processor tests |
| Scenarios.StripPrefixExamples | lib/xml2js.js:33-39 | `stripPrefix` removes `p:` and keeps `xmlns:a` |

## Left out

- The sax tokenizer (index.js:2, 102-114): entity decoding, well-formedness checks, strict and non-strict modes, namespace resolution, and its messages. The tokenizer is a parameter of `Driver.ParseString` that yields callbacks. `parseString` adds the final end-of-input callback that `close()` makes.
- Asynchronous chunked feeding (`async`, `chunkSize`, `processAsync`, index.js:76-95, 132-135): this is scheduling. `strict` only steers the tokenizer.
- Event-emitter plumbing:
  - listener registration;
  - the `reset()` that callback listeners perform in the middle of a run;
  - exceptions thrown by user callbacks;
  - the rethrow in `parseString`'s catch block once the document has ended (index.js:142-144).

  A later exception ends the run without a signal. After a validator error the run goes on with the unvalidated value, which is what the code does when the listeners do not reset the parser. The callback sees only the first event.
- `parseNumbers` and numbers in general: the value datatype has no numbers. Floating-point parsing and `isNaN` coercion are out of scope.
- The static `parseString(str, a, b)` argument juggling (index.js:53-63, lib/xml2js.js:294-304) and the static getters: these are wrappers around `new Parser(options).parseString(str, cb)`.
- `unshift` mutating the caller's tag processor array, and shared references such as an object `emptyTag` being reused by every empty element: the model has no aliasing.
- JavaScript object key order: objects are maps, and order that matters lives in arrays.
- Collapse.Rest: keys shared between reserved slots and element content are out of scope. Examples are a child named like `charkey`, `attrkey`, `childkey`, `#name` or `cdata`, and `s.cdata = true` overwriting such a child (index.js:283). The frame keeps text, name and the CDATA flag in separate fields. In the element object the reserved slots take precedence over children.
- Collapse.Reshape: for arrays it does not model `attrkey` or `charkey` being an index name or `length`.
- Processors.ParseBooleansValue: only the string case is modelled. Any other value passes through, where JavaScript would test its string form.
- Text.Lower: ASCII letters only. Unicode case mapping is out of scope.
- Text.IsSpace: JavaScript's `\s` is a fixed character set.
- Driver.FinishRoot: the root is wrapped as in index.js:255, `{[nodeName]: obj}`, in both copies. lib/xml2js.js:237-239 assigns `obj[nodeName] = old` instead, so for a root named `__proto__` it calls the inherited setter and gives `{}` (or an object with a changed prototype); that case is not modelled.
- Frames.AssignOrPush: keys are plain map keys, so names inherited from `Object.prototype` are not modelled. `key in obj` (index.js:149) is already true for a name such as `constructor`, which makes `_assignOrPush` store `[Object, v]`, and a key `__proto__` replaces the object's prototype instead of adding a key.
- Collapse.Existing: `s[nodeName]` (index.js:219) also finds inherited properties such as `constructor`; the model gives undefined for them.
- Frames.OpenFrame: an attribute named `hasOwnProperty` shadows the method, so `ref.hasOwnProperty(key)` (index.js:161) throws; the model processes it like any other attribute.
- Collapse.XPath: states the path's shape through its two lemmas, not the characters of every name.

## Findings

| source | as written | input that shows it | evidently intended | confidence | as-written member | corrected member |
|---|---|---|---|---|---|---|
| index.js:212-214 | `if (!Object.keys(obj).length)` treats every value without own keys as an empty element. That includes a boolean that a value processor made from the text. Null and undefined make `Object.keys` throw. | `<flag>true</flag>` with `valueProcessors: [parseBooleans]` yields `''` instead of `true` | only an empty string, array or object is replaced by `emptyTag`/`emptyStr` | medium, not executed | Collapse.NodeValue, through Collapse.SubstituteEmptyAsWritten (shown by Collapse.AsWrittenDropsBooleans and Scenarios.BooleanTextDropped) | Collapse.NodeValueCorrected, through Collapse.SubstituteEmpty (Collapse.SubstituteEmptyKeepsContent, Collapse.NodeValueAgrees) |
| lib/xml2js.js:171, 198 | `emptyStr` is declared without a value, so kept text that ends up empty is replaced by `undefined` | `<t><![CDATA[ ]]></t>` with `trim: true` yields `{t: undefined}`, where `index.js` yields `{t: ''}`; test/parser.js:650-656 expects `''` for an empty CDATA element | `emptyStr` starts as `''`, as in index.js:195 | high, not executed | Scenarios.TrimmedSpaceCDataLegacy (also Scenarios.EmptyCDataLegacy, if the tokenizer reports an empty section) | Scenarios.TrimmedSpaceCDataCurrent (Collapse.EditionsDifferOnlyOnEmptyKeptText) |

=== FILE: collapse.dfy ===
/** The value `_closeTag` computes for a finished element: the text stage, the empty-element
    substitution, the validator call and the `explicitChildren` reshaping. */
module Collapse {
  import opened Values
  import opened Text
  import opened Processors
  import opened Options
  import opened Frames

  /** The `xmlnskey` object `{uri, local}`. */
  function NamespaceObject(n: Namespace): Value {
    Obj(map["uri" := Str(n.uri), "local" := Str(n.local)])
  }

  /** Whether `'#name'` stays on the element object while it is closed: only in order-preserving
      child mode. */
  predicate KeepsName(o: Options) {
    o.explicitChildren && o.preserveChildrenOrder
  }

  /** The keys the parser itself writes on an element object. */
  function Reserved(o: Options, xmlnskey: Option<string>): (r: set<string>)
    ensures o.attrkey in r && o.charkey in r && o.childkey in r && "#name" in r
    ensures xmlnskey.Some? ==> xmlnskey.value in r
  {
    {o.attrkey, o.charkey, o.childkey, "#name"} + (if xmlnskey.Some? then {xmlnskey.value} else {})
  }

  /** The element object as `_closeTag` sees it after taking out `'#name'` and the CDATA flag,
      without its text slot (the text stage decides that one). */
  function Rest(o: Options, xmlnskey: Option<string>, f: Frame): (m: map<string, Value>)
    ensures forall k :: k in m <==>
      || k in f.props
      || (k == o.attrkey && f.attrs.Some?)
      || (xmlnskey.Some? && f.ns.Some? && k == xmlnskey.value)
      || (k == o.childkey && f.ordered.Some?)
      || (k == "#name" && KeepsName(o))
    ensures forall k :: k in f.props && k !in Reserved(o, xmlnskey) ==> m[k] == f.props[k]
    ensures KeepsName(o) ==> m["#name"] == Str(f.name)
    ensures (&& f.attrs.Some? && o.attrkey != o.childkey && o.attrkey != "#name"
             && (xmlnskey.Some? ==> o.attrkey != xmlnskey.value))
            ==> m[o.attrkey] == Obj(f.attrs.value)
  {
    var m0 := f.props;
    var m1 := if f.attrs.Some? then m0[o.attrkey := Obj(f.attrs.value)] else m0;
    var m2 := if xmlnskey.Some? && f.ns.Some? then m1[xmlnskey.value := NamespaceObject(f.ns.value)] else m1;
    var m3 := if f.ordered.Some? then m2[o.childkey := Arr(f.ordered.value)] else m2;
    if KeepsName(o) then m3["#name" := Str(f.name)] else m3
  }

  /** The text after `trim` and `normalize`, before the value processors. */
  function PrepareText(o: Options, text: string): (r: string)
    ensures NonSpace(r) == NonSpace(text)
    ensures !o.trim && !o.normalize ==> r == text
    ensures o.trim || o.normalize ==> IsTrimmed(r) && (|r| == 0 <==> IsBlank(text))
    ensures o.normalize ==> NoDoubleSpace(r)
  {
    var t := if o.trim then Trim(text) else text;
    if o.normalize then NormalizeSpace(t) else t
  }

  /** Preparing prepared text changes nothing. */
  lemma PrepareTextIdempotent(o: Options, text: string)
    ensures PrepareText(o, PrepareText(o, text)) == PrepareText(o, text)
  {
    var r := PrepareText(o, text);
    if o.normalize {
      assert CollapseRuns(r) == r;
    }
  }

  /** The text slot's final value: the prepared text through the value processors. */
  function TextValue(o: Options, text: string): (v: Value)
    ensures |o.valueProcessors| == 0 ==> v == Str(PrepareText(o, text))
  {
    ProcessName(o.valueProcessors, Str(PrepareText(o, text)))
  }

  /** The outcome of the text stage: the element's value so far, and the blank text that was
      dropped (which becomes `emptyStr`), if any. */
  datatype Shaped = Shaped(value: Value, dropped: Option<string>)

  /** Whether an object holding only the text slot collapses to the text value itself. */
  predicate CollapsesToText(o: Options, m: map<string, Value>) {
    !o.explicitCharkey && m.Keys <= {o.charkey}
  }

  /** The text stage of `_closeTag`: blank text outside CDATA is dropped; otherwise the text is
      prepared, processed and stored, and an element with nothing but text becomes its text. */
  function ShapeText(o: Options, xmlnskey: Option<string>, f: Frame): (r: Shaped)
    ensures r.dropped.Some? <==> IsBlank(f.text) && !f.cdata
    ensures r.dropped.Some? ==> r.dropped.value == f.text && r.value == Obj(Rest(o, xmlnskey, f))
    ensures r.dropped.None? && CollapsesToText(o, Rest(o, xmlnskey, f)) ==> r.value == TextValue(o, f.text)
    ensures r.dropped.None? && !CollapsesToText(o, Rest(o, xmlnskey, f)) ==>
      && r.value.Obj?
      && o.charkey in r.value.fields && r.value.fields[o.charkey] == TextValue(o, f.text)
      && forall k :: k != o.charkey ==>
           && (k in r.value.fields <==> k in Rest(o, xmlnskey, f))
           && (k in Rest(o, xmlnskey, f) ==> r.value.fields[k] == Rest(o, xmlnskey, f)[k])
  {
    var rest := Rest(o, xmlnskey, f);
    if IsBlank(f.text) && !f.cdata then Shaped(Obj(rest), Some(f.text))
    else
      var t := TextValue(o, f.text);
      if CollapsesToText(o, rest) then Shaped(t, None) else Shaped(Obj(rest[o.charkey := t]), None)
  }

  /** `emptyStr`: the dropped blank text, or the initial value when no text was dropped, which
      is `''` in `index.js` and `undefined` in `lib/xml2js.js`. */
  function EmptyStr(edition: Edition, dropped: Option<string>): (r: Value)
    ensures dropped.Some? ==> r == Str(dropped.value)
    ensures dropped.None? ==> (r == Str("") <==> edition == Current)
    ensures dropped.None? ==> (r == Undefined <==> edition == Legacy)
  {
    match (dropped, edition)
    case (Some(t), _) => Str(t)
    case (None, Current) => Str("")
    case (None, Legacy) => Undefined
  }

  /** The empty-element substitution, as it is evidently meant: a value without content (empty
      string, array or object) becomes `emptyTag`, or `emptyStr` when `emptyTag` is `''`. */
  function SubstituteEmpty(o: Options, v: Value, emptyStr: Value): (r: Value)
    ensures !IsKeyless(v) ==> r == v
    ensures IsKeyless(v) && o.emptyTag != Str("") ==> r == o.emptyTag
    ensures IsKeyless(v) && o.emptyTag == Str("") ==> r == emptyStr
  {
    if IsKeyless(v) then (if o.emptyTag != Str("") then o.emptyTag else emptyStr) else v
  }

  /** The substitution as written, `if (!Object.keys(obj).length)`: booleans count as empty,
      and `null` or `undefined` make `Object.keys` throw (None). */
  function SubstituteEmptyAsWritten(o: Options, v: Value, emptyStr: Value): (r: Option<Value>)
    ensures r.None? <==> v.Null? || v.Undefined?
    ensures v.Bool? ==> r == Some(if o.emptyTag != Str("") then o.emptyTag else emptyStr)
    ensures v.Str? || v.Arr? || v.Obj? ==> r == Some(SubstituteEmpty(o, v, emptyStr))
  {
    match KeyCount(v)
    case None => None
    case Some(n) => Some(if n == 0 then (if o.emptyTag != Str("") then o.emptyTag else emptyStr) else v)
  }

  /** The text an element produced survives the corrected substitution whatever value the value
      processors turned it into, unless that value has no content. */
  lemma SubstituteEmptyKeepsContent(o: Options, v: Value, emptyStr: Value)
    requires v.Bool? || v.Null? || v.Undefined?
    ensures SubstituteEmpty(o, v, emptyStr) == v
  {
  }

  /** As written, `<flag>true</flag>` with `parseBooleans` as value processor and default
      options yields `''` rather than `true`. */
  lemma AsWrittenDropsBooleans()
    ensures TextValue(Defaults.(valueProcessors := [ParseBooleansValue]), "true") == Bool(true)
    ensures SubstituteEmptyAsWritten(Defaults, Bool(true), Str("")) == Some(Str(""))
    ensures SubstituteEmpty(Defaults, Bool(true), Str("")) == Bool(true)
  {
    var o := Defaults.(valueProcessors := [ParseBooleansValue]);
    assert PrepareText(o, "true") == "true";
    assert Lower("true") == "true";
    assert ProcessName(o.valueProcessors, Str("true")) == ProcessName([], ParseBooleansValue(Str("true")));
  }

  /** The value `_closeTag` has before the validator: the text stage, then the substitution as
      written. None when the value processors left `null` or `undefined`, on which
      `Object.keys` throws. */
  function NodeValue(s: Settings, f: Frame): (v: Option<Value>)
    ensures var sh := ShapeText(s.opts, s.xmlnskey, f);
      && (v.None? <==> sh.value.Null? || sh.value.Undefined?)
      && (KeyCount(sh.value) == Some(0) ==>
            v == Some(if s.opts.emptyTag != Str("") then s.opts.emptyTag else EmptyStr(s.edition, sh.dropped)))
      && (KeyCount(sh.value).Some? && KeyCount(sh.value).value > 0 ==> v == Some(sh.value))
    ensures IsBlank(f.text) && !f.cdata && |Rest(s.opts, s.xmlnskey, f)| == 0 ==>
      v == Some(if s.opts.emptyTag != Str("") then s.opts.emptyTag else Str(f.text))
  {
    var sh := ShapeText(s.opts, s.xmlnskey, f);
    SubstituteEmptyAsWritten(s.opts, sh.value, EmptyStr(s.edition, sh.dropped))
  }

  /** The same value with the substitution as evidently meant: only a value without content is
      replaced, and nothing throws. */
  function NodeValueCorrected(s: Settings, f: Frame): (v: Value)
    ensures IsBlank(f.text) && !f.cdata && |Rest(s.opts, s.xmlnskey, f)| == 0 ==>
      v == (if s.opts.emptyTag != Str("") then s.opts.emptyTag else Str(f.text))
    ensures !IsKeyless(ShapeText(s.opts, s.xmlnskey, f).value) ==> v == ShapeText(s.opts, s.xmlnskey, f).value
  {
    var sh := ShapeText(s.opts, s.xmlnskey, f);
    SubstituteEmpty(s.opts, sh.value, EmptyStr(s.edition, sh.dropped))
  }

  /** The text stage yields a string, an array or an object whenever the value processors keep
      strings strings. */
  lemma ShapeTextKeepsStrings(o: Options, xmlnskey: Option<string>, f: Frame)
    requires KeepsStrings(o.valueProcessors)
    ensures var v := ShapeText(o, xmlnskey, f).value; v.Str? || v.Arr? || v.Obj?
  {
    ProcessNameKeepsStrings(o.valueProcessors, Str(PrepareText(o, f.text)));
  }

  /** The code as written and the corrected rule agree whenever every value processor maps
      strings to strings: the two differ only on booleans, `null` and `undefined`. */
  lemma NodeValueAgrees(s: Settings, f: Frame)
    requires KeepsStrings(s.opts.valueProcessors)
    ensures NodeValue(s, f) == Some(NodeValueCorrected(s, f))
  {
    ShapeTextKeepsStrings(s.opts, s.xmlnskey, f);
  }

  /** An element with nothing but kept text becomes its text, prepared; text that comes out
      empty is replaced like an empty element, by `emptyTag` or the initial `emptyStr`. */
  lemma TextOnlyElement(s: Settings, f: Frame)
    requires |Rest(s.opts, s.xmlnskey, f)| == 0 && (!IsBlank(f.text) || f.cdata)
    requires |s.opts.valueProcessors| == 0 && !s.opts.explicitCharkey
    ensures |PrepareText(s.opts, f.text)| > 0 ==> NodeValue(s, f) == Some(Str(PrepareText(s.opts, f.text)))
    ensures |PrepareText(s.opts, f.text)| == 0 ==>
      NodeValue(s, f) == Some(if s.opts.emptyTag != Str("") then s.opts.emptyTag else EmptyStr(s.edition, None))
  {
    assert CollapsesToText(s.opts, Rest(s.opts, s.xmlnskey, f));
  }

  /** The two copies of the class compute the same element value except in one case: text was
      kept (non-blank or CDATA) but came out without keys (an empty string, or a boolean from
      the value processors), and `emptyTag` is `''`. There `index.js` gives `''` and
      `lib/xml2js.js` gives `undefined`. */
  lemma EditionsDifferOnlyOnEmptyKeptText(s: Settings, f: Frame)
    ensures var c := NodeValue(s.(edition := Current), f);
            var l := NodeValue(s.(edition := Legacy), f);
            var sh := ShapeText(s.opts, s.xmlnskey, f);
            && (c != l <==> sh.dropped.None? && KeyCount(sh.value) == Some(0) && s.opts.emptyTag == Str(""))
            && (c != l ==> c == Some(Str("")) && l == Some(Undefined))
            && (sh.value.Bool? && s.opts.emptyTag == Str("") ==> c == Some(Str("")) && l == Some(Undefined))
  {
    var sh := ShapeText(s.opts, s.xmlnskey, f);
    EditionsDifferOnEmptyStr(s.opts, sh);
  }

  lemma EditionsDifferOnEmptyStr(o: Options, sh: Shaped)
    requires sh.value.Bool? ==> sh.dropped.None?
    ensures var c := SubstituteEmptyAsWritten(o, sh.value, EmptyStr(Current, sh.dropped));
            var l := SubstituteEmptyAsWritten(o, sh.value, EmptyStr(Legacy, sh.dropped));
            && (c != l <==> sh.dropped.None? && KeyCount(sh.value) == Some(0) && o.emptyTag == Str(""))
            && (c != l ==> c == Some(Str("")) && l == Some(Undefined))
            && (sh.value.Bool? && o.emptyTag == Str("") ==> c == Some(Str("")) && l == Some(Undefined))
  {
  }

  /** `sep`-separated concatenation of `parts`. */
  function Join(parts: seq<string>, sep: string): string
  {
    if |parts| == 0 then ""
    else if |parts| == 1 then parts[0]
    else Join(parts[..|parts| - 1], sep) + sep + parts[|parts| - 1]
  }

  /** The validator's path: `'/'` and the names of the open ancestors and the element,
      joined by `'/'`. */
  function XPath(ancestors: seq<string>, name: string): (p: string)
    ensures |p| > 0 && p[0] == '/'
  {
    "/" + Join(ancestors + [name], "/")
  }

  /** A child's path is its parent's path, a `'/'` and its own name. */
  lemma XPathOfChild(ancestors: seq<string>, parent: string, name: string)
    ensures XPath(ancestors + [parent], name) == XPath(ancestors, parent) + "/" + name
  {
    var ps := ancestors + [parent] + [name];
    assert ps[..|ps| - 1] == ancestors + [parent];
  }

  /** The root's path is `'/'` and its name. */
  lemma XPathOfRoot(name: string)
    ensures XPath([], name) == "/" + name
  {
    assert [] + [name] == [name];
  }

  /** The validator call: its result replaces the value; a thrown error is reported (Some
      message) and the value is left as it was. */
  function Validate(o: Options, path: string, current: Value, v: Value): (r: (Value, Option<string>))
    ensures o.validator.None? ==> r == (v, None)
    ensures o.validator.Some? && o.validator.value(path, current, v).Accept? ==>
      r == (o.validator.value(path, current, v).value, None)
    ensures o.validator.Some? && o.validator.value(path, current, v).Reject? ==>
      r == (v, Some(o.validator.value(path, current, v).message))
  {
    match o.validator
    case None => (v, None)
    case Some(validate) =>
      match validate(path, current, v)
      case Accept(w) => (w, None)
      case Reject(msg) => (v, Some(msg))
  }

  /** `s && s[nodeName]`: what the parent already holds under the element's name. */
  function Existing(parent: Option<Frame>, name: string): (v: Value)
    ensures parent.None? || name !in parent.value.props ==> v == Undefined
    ensures parent.Some? && name in parent.value.props ==> v == parent.value.props[name]
  {
    if parent.Some? && name in parent.value.props then parent.value.props[name] else Undefined
  }

  /** Whether a key of an element object stays on top when it is reshaped: the attributes, and
      the text unless text counts as a child. */
  predicate StaysOnTop(o: Options, k: string) {
    k == o.attrkey || (k == o.charkey && !o.charsAsChildren)
  }

  /** The part of an element object that stays on top. */
  function TopPart(o: Options, m: map<string, Value>): map<string, Value> {
    map k | k in m && StaysOnTop(o, k) :: m[k]
  }

  /** The part of an element object that moves under `childkey`. */
  function ChildPart(o: Options, m: map<string, Value>): map<string, Value> {
    map k | k in m && !StaysOnTop(o, k) :: m[k]
  }

  /** The non-order-preserving reshaping of an element object: attributes and (unless text
      counts as a child) text stay on top, everything else moves under `childkey`, which is
      only written when something moved. */
  function Separate(o: Options, m: map<string, Value>): (r: map<string, Value>)
    ensures forall k :: k in r ==> StaysOnTop(o, k) || k == o.childkey
    ensures forall k :: k in m && StaysOnTop(o, k) && k != o.childkey ==> k in r && r[k] == m[k]
    ensures o.childkey in r && !StaysOnTop(o, o.childkey) ==>
      r[o.childkey].Obj? && forall k :: k in r[o.childkey].fields <==> k in m && !StaysOnTop(o, k)
    ensures !StaysOnTop(o, o.childkey) ==> (o.childkey !in r <==> forall k :: k in m ==> StaysOnTop(o, k))
  {
    var children := ChildPart(o, m);
    if |children| > 0 then TopPart(o, m)[o.childkey := Obj(children)]
    else
      assert forall k :: k in m ==> StaysOnTop(o, k) by {
        forall k | k in m ensures StaysOnTop(o, k) {
          assert k !in children;
        }
      }
      TopPart(o, m)
  }

  /** Undoes `Separate`: the object under `childkey` is merged back into the top level. */
  function Flatten(o: Options, r: map<string, Value>): map<string, Value>
  {
    var inner := if o.childkey in r && r[o.childkey].Obj? then r[o.childkey].fields else map[];
    (r - {o.childkey}) + inner
  }

  /** Reshaping loses nothing: flattening the reshaped object gives the original back, as long
      as `childkey` is not one of the keys that stay on top. */
  lemma FlattenSeparate(o: Options, m: map<string, Value>)
    requires !StaysOnTop(o, o.childkey)
    ensures Flatten(o, Separate(o, m)) == m
  {
    var top := TopPart(o, m);
    var children := ChildPart(o, m);
    assert Flatten(o, Separate(o, m)) == top + children by {
      if |children| > 0 {
        FlattenPut(o, top, children);
      } else {
        assert children == map[];
        assert top - {o.childkey} == top;
      }
    }
    PartsUnion(o, m);
  }

  /** Merging the object put under `childkey` back into a top level that lacks `childkey`. */
  lemma FlattenPut(o: Options, top: map<string, Value>, children: map<string, Value>)
    requires o.childkey !in top
    ensures Flatten(o, top[o.childkey := Obj(children)]) == top + children
  {
    assert top[o.childkey := Obj(children)] - {o.childkey} == top;
  }

  /** The two parts of an element object together are the object. */
  lemma PartsUnion(o: Options, m: map<string, Value>)
    ensures TopPart(o, m) + ChildPart(o, m) == m
  {
    var u := TopPart(o, m) + ChildPart(o, m);
    forall k | k in m ensures k in u && u[k] == m[k] {
      if StaysOnTop(o, k) { assert k in TopPart(o, m); } else { assert k in ChildPart(o, m); }
    }
    assert u.Keys == m.Keys;
  }

  /** The reshaping step's outcome: the element's value and its parent (which gains an
      ordered child in order-preserving mode), or a TypeError. */
  datatype Reshaped = Reshaped(value: Value, parent: Option<Frame>) | Faulted

  /** Whether an object, once its name is deleted, holds exactly the text slot and collapses. */
  predicate StillCollapses(o: Options, m: map<string, Value>) {
    o.charkey != "#name" && o.charkey in m && CollapsesToText(o, m - {"#name"})
  }

  /** `typeof obj === 'object'` under `explicitChildren` without `mergeAttrs`. */
  predicate Reshapes(o: Options, v: Value) {
    o.explicitChildren && !o.mergeAttrs && IsObjectType(v)
  }

  /** The `explicitChildren` block of `_closeTag`. Without order preservation an object is
      separated and an array goes under `childkey`; with it, a copy (still named) is appended
      to the parent's ordered children, and the value loses its name. `null` makes the
      source throw. */
  function Reshape(s: Settings, v: Value, parent: Option<Frame>): (r: Reshaped)
    ensures !Reshapes(s.opts, v) ==> r == Reshaped(v, parent)
    ensures r.Faulted? <==> Reshapes(s.opts, v) && v.Null? && (!s.opts.preserveChildrenOrder || parent.Some?)
    ensures r.Reshaped? ==> (r.parent.Some? <==> parent.Some?)
    ensures r.Reshaped? && parent.Some? ==>
      r.parent.value == parent.value.(ordered := r.parent.value.ordered)
    ensures Reshapes(s.opts, v) && !s.opts.preserveChildrenOrder && v.Obj? ==>
      r == Reshaped(Obj(Separate(s.opts, v.fields)), parent)
    ensures Reshapes(s.opts, v) && !s.opts.preserveChildrenOrder && v.Arr? ==>
      r == Reshaped(Obj(map[s.opts.childkey := v]), parent)
    ensures Reshapes(s.opts, v) && s.opts.preserveChildrenOrder && v.Obj? && parent.Some? ==>
      && r.parent.value.ordered == Some(parent.value.ordered.GetOr([]) + [v])
      && (StillCollapses(s.opts, v.fields) ==> r.value == v.fields[s.opts.charkey])
      && (!StillCollapses(s.opts, v.fields) ==> r.value == Obj(v.fields - {"#name"}))
    ensures Reshapes(s.opts, v) && s.opts.preserveChildrenOrder && v.Arr? && parent.Some? ==>
      && r.value == v
      && r.parent.value.ordered == Some(parent.value.ordered.GetOr([]) + [Obj(IndexKeyed(v.items))])
    ensures Reshapes(s.opts, v) && s.opts.preserveChildrenOrder && parent.None? ==> r == Reshaped(v, parent)
  {
    var o := s.opts;
    if !Reshapes(o, v) then Reshaped(v, parent)
    else if !o.preserveChildrenOrder then
      match v
      case Obj(m) => Reshaped(Obj(Separate(o, m)), parent)
      case Arr(_) => Reshaped(Obj(map[o.childkey := v]), parent)
      case Null => Faulted
    else if parent.None? then Reshaped(v, parent)
    else
      var p := parent.value;
      match v
      case Null => Faulted
      case Arr(items) =>
        Reshaped(v, Some(p.(ordered := Some(p.ordered.GetOr([]) + [Obj(IndexKeyed(items))]))))
      case Obj(m) =>
        var value := if StillCollapses(o, m) then m[o.charkey] else Obj(m - {"#name"});
        Reshaped(value, Some(p.(ordered := Some(p.ordered.GetOr([]) + [v]))))
  }
}

=== FILE: driver.dfy ===
/** The parser as a whole: the tokenizer callbacks it handles (`_closeTag`, `_onEnd`,
    `_onError` and the handlers in Frames), the flags it keeps on the tokenizer (`ended`,
    `errThrown`), the events it emits, and `parseString`. */
module Driver {
  import opened Values
  import opened Text
  import opened Processors
  import opened Options
  import opened Frames
  import opened Collapse

  /** A callback of the tokenizer. */
  datatype Event =
    | OpenTag(name: string, attributes: seq<Attribute>, uri: string, local: string)
    | TextNode(text: string)
    | CDataNode(text: string)
    | CloseTag
    | EndOfInput
    | TokenizerError(message: string)

  /** Why an `error` event was emitted. */
  datatype ErrorKind =
    | Malformed(message: string)   // reported by the tokenizer
    | Rejected(message: string)    // thrown by the validator
    | Fault                        // a TypeError raised inside a handler
    | MissingInput                 // `toString` of null or undefined

  /** An event the parser emits. */
  datatype Signal = End(result: Value) | Error(kind: ErrorKind)

  /** The errors that pass through the `errThrown` guard. A validator error does not. */
  predicate Guarded(g: Signal) {
    g.Error? && !g.kind.Rejected?
  }

  function GuardedCount(gs: seq<Signal>): (n: nat)
    ensures n <= |gs|
  {
    if |gs| == 0 then 0 else (if Guarded(gs[0]) then 1 else 0) + GuardedCount(gs[1..])
  }

  /** The count is zero exactly when no event passes through the guard. */
  lemma {:induction false} GuardedCountZero(gs: seq<Signal>)
    ensures GuardedCount(gs) == 0 <==> forall i :: 0 <= i < |gs| ==> !Guarded(gs[i])
  {
    if |gs| > 0 {
      GuardedCountZero(gs[1..]);
      assert forall i :: 1 <= i < |gs| ==> gs[i] == gs[1..][i - 1];
    }
  }

  lemma {:induction false} GuardedCountAppend(a: seq<Signal>, b: seq<Signal>)
    ensures GuardedCount(a + b) == GuardedCount(a) + GuardedCount(b)
  {
    if |a| > 0 {
      assert (a + b)[1..] == a[1..] + b;
      GuardedCountAppend(a[1..], b);
    } else {
      assert a + b == b;
    }
  }

  /** The parser's state during one run: the open elements, `resultObject`, the two flags it
      keeps on the tokenizer, and whether an exception has ended the run. */
  datatype State = State(stack: seq<Frame>, result: Value, ended: bool, errThrown: bool, halted: bool)

  /** The state after `reset`. */
  const Fresh: State := State([], Null, false, false, false)

  /** A state and the events emitted on the way to it. */
  datatype Outcome = Outcome(state: State, signals: seq<Signal>)

  /** The catch block of `parseString`: an exception is reported unless an error was already
      reported or the document already ended, and the run stops with the stack, the result
      and `ended` as they were. */
  function Fail(st: State): (r: Outcome)
    ensures r.state.halted
    ensures r.state == st.(errThrown := r.state.errThrown, halted := true)
    ensures r.state.errThrown <==> st.errThrown || !st.ended
    ensures r.signals == [] || r.signals == [Error(Fault)]
    ensures r.signals == [Error(Fault)] <==> !st.errThrown && !st.ended
  {
    Outcome(st.(errThrown := st.errThrown || !st.ended, halted := true),
      if st.errThrown || st.ended then [] else [Error(Fault)])
  }

  /** The names of the open elements, outermost first. */
  function Names(frames: seq<Frame>): (r: seq<string>)
    ensures |r| == |frames| && forall i :: 0 <= i < |frames| ==> r[i] == frames[i].name
  {
    seq(|frames|, i requires 0 <= i < |frames| => frames[i].name)
  }

  /** The element being closed: the top of the stack. */
  function Top(stack: seq<Frame>): Frame
    requires |stack| > 0
  {
    stack[|stack| - 1]
  }

  /** The events a validator error causes: one `error`, or none when the validator accepted. */
  function Rejection(message: Option<string>): seq<Signal> {
    if message.Some? then [Error(Rejected(message.value))] else []
  }

  /** `_closeTag`: the top element's value is computed, validated, reshaped and attached to its
      parent under the element's name; the root's value becomes the result and ends the
      document. A TypeError on the way (`Object.keys` of `null` or `undefined`, a reshaped
      `null`) stops the run, after the validator's error if it threw. */
  function Close(s: Settings, st: State): (r: Outcome)
    requires !st.halted
    ensures |st.stack| == 0 ==> r == Fail(st)
    ensures |st.stack| > 0 && NodeValue(s, Top(st.stack)).None? ==> r == Fail(st)
    ensures |st.stack| > 0 && NodeValue(s, Top(st.stack)).Some? ==>
      var (u, rejected) := Validated(s, st.stack, NodeValue(s, Top(st.stack)).value);
      var rs := Reshape(s, u, Parent(st.stack));
      && (rs.Faulted? ==> r == Outcome(Fail(st).state, Rejection(rejected) + Fail(st).signals))
      && (rs.Reshaped? && |st.stack| > 1 ==>
            && r.signals == Rejection(rejected)
            && r.state == st.(stack := st.stack[..|st.stack| - 2] +
                 [rs.parent.value.(props := AssignOrPush(s.opts.explicitArray, rs.parent.value.props, Top(st.stack).name, rs.value))]))
      && (rs.Reshaped? && |st.stack| == 1 ==>
            && r.signals == Rejection(rejected) + [End(r.state.result)]
            && r.state == st.(stack := [], result := r.state.result, ended := true)
            && r.state.result == (if s.opts.explicitRoot then Obj(map[Top(st.stack).name := rs.value]) else rs.value))
    ensures r.state.halted ==> r.state.stack == st.stack
    ensures !r.state.halted && |st.stack| > 1 ==>
      && |r.state.stack| == |st.stack| - 1
      && r.state.stack[..|st.stack| - 2] == st.stack[..|st.stack| - 2]
      && Top(st.stack).name in r.state.stack[|st.stack| - 2].props
    ensures r.state.ended <==> st.ended || (|st.stack| == 1 && r.state.stack == [] && !r.state.halted)
    ensures r.state.errThrown <==> st.errThrown || (r.state.halted && !st.ended)
    ensures GuardedCount(r.signals) == (if r.state.halted && !st.errThrown && !st.ended then 1 else 0)
    ensures |r.signals| <= 2
    ensures !r.state.halted && |st.stack| == 1 ==>
      |r.signals| > 0 && r.signals[|r.signals| - 1] == End(r.state.result) && r.state.stack == []
  {
    if |st.stack| == 0 then Fail(st)
    else
      match NodeValue(s, Top(st.stack))
      case None => Fail(st)
      case Some(v) =>
        var (u, rejected) := Validated(s, st.stack, v);
        Conclude(s, st, Rejection(rejected), Reshape(s, u, Parent(st.stack)))
  }

  /** The end of `_closeTag` once the value is reshaped, after the validator's error `pre` if
      any: a fault stops the run; otherwise the value goes into the parent, or ends the
      document at the root. */
  function Conclude(s: Settings, st: State, pre: seq<Signal>, rs: Reshaped): (r: Outcome)
    requires !st.halted && |st.stack| > 0
    requires GuardedCount(pre) == 0 && |pre| <= 1
    requires rs.Reshaped? ==> (rs.parent.Some? <==> |st.stack| > 1)
    ensures r.state.halted <==> rs.Faulted?
    ensures rs.Faulted? ==> r == Outcome(Fail(st).state, pre + Fail(st).signals)
    ensures rs.Reshaped? && |st.stack| > 1 ==>
      && r.signals == pre
      && r.state == st.(stack := st.stack[..|st.stack| - 2] +
           [rs.parent.value.(props := AssignOrPush(s.opts.explicitArray, rs.parent.value.props, Top(st.stack).name, rs.value))])
    ensures rs.Reshaped? && |st.stack| == 1 ==>
      && r.signals == pre + [End(r.state.result)]
      && r.state == st.(stack := [], result := r.state.result, ended := true)
      && r.state.result == (if s.opts.explicitRoot then Obj(map[Top(st.stack).name := rs.value]) else rs.value)
    ensures !r.state.halted && |st.stack| > 1 ==>
      && |r.state.stack| == |st.stack| - 1
      && r.state.stack[..|st.stack| - 2] == st.stack[..|st.stack| - 2]
      && Top(st.stack).name in r.state.stack[|st.stack| - 2].props
    ensures r.state.ended <==> st.ended || (|st.stack| == 1 && r.state.stack == [] && !r.state.halted)
    ensures r.state.errThrown <==> st.errThrown || (r.state.halted && !st.ended)
    ensures GuardedCount(r.signals) == (if r.state.halted && !st.errThrown && !st.ended then 1 else 0)
    ensures |r.signals| <= 2
    ensures !r.state.halted && |st.stack| == 1 ==>
      |r.signals| > 0 && r.signals[|r.signals| - 1] == End(r.state.result) && r.state.stack == []
  {
    match rs
    case Faulted =>
      var failed := Fail(st);
      GuardedCountAppend(pre, failed.signals);
      Outcome(failed.state, pre + failed.signals)
    case Reshaped(w, parent) =>
      if |st.stack| > 1 then Attach(s, st, w, parent.value, pre)
      else
        var r := FinishRoot(s, st, w, pre);
        GuardedCountAppend(pre, [End(r.state.result)]);
        r
  }

  /** `_closeTag` with a parent: `_assignOrPush` puts the value into the parent under the
      element's name, and the parent replaces the two top frames; nothing else changes. */
  function Attach(s: Settings, st: State, w: Value, parent: Frame, pre: seq<Signal>): (r: Outcome)
    requires |st.stack| > 1
    ensures r.signals == pre
    ensures r.state == st.(stack := r.state.stack)
    ensures r.state.stack == st.stack[..|st.stack| - 2] +
      [parent.(props := AssignOrPush(s.opts.explicitArray, parent.props, Top(st.stack).name, w))]
    ensures |r.state.stack| == |st.stack| - 1
    ensures r.state.stack[..|st.stack| - 2] == st.stack[..|st.stack| - 2]
    ensures Top(st.stack).name in r.state.stack[|st.stack| - 2].props
  {
    var name := Top(st.stack).name;
    var attached := parent.(props := AssignOrPush(s.opts.explicitArray, parent.props, name, w));
    Outcome(st.(stack := st.stack[..|st.stack| - 2] + [attached]), pre)
  }

  /** `_closeTag` at the root: the result is the value, under the root's name with
      `explicitRoot`, and `end` is emitted with it. */
  function FinishRoot(s: Settings, st: State, w: Value, pre: seq<Signal>): (r: Outcome)
    requires |st.stack| == 1
    ensures r.state == st.(stack := [], result := r.state.result, ended := true)
    ensures r.signals == pre + [End(r.state.result)]
    ensures s.opts.explicitRoot ==> r.state.result == Obj(map[st.stack[0].name := w])
    ensures !s.opts.explicitRoot ==> r.state.result == w
  {
    var root := if s.opts.explicitRoot then Obj(map[st.stack[0].name := w]) else w;
    Outcome(st.(stack := [], result := root, ended := true), pre + [End(root)])
  }

  /** A validator error is the first event of the close that met it, whatever follows. */
  lemma RejectionReportedFirst(s: Settings, st: State)
    requires !st.halted && |st.stack| > 0 && NodeValue(s, Top(st.stack)).Some?
    requires Validated(s, st.stack, NodeValue(s, Top(st.stack)).value).1.Some?
    ensures |Close(s, st).signals| > 0
    ensures Close(s, st).signals[0] == Error(Rejected(Validated(s, st.stack, NodeValue(s, Top(st.stack)).value).1.value))
  {
  }

  /** The frame below the top one, if any: the parent of the element being closed. */
  function Parent(stack: seq<Frame>): (p: Option<Frame>)
    ensures p.Some? <==> |stack| > 1
    ensures p.Some? ==> p.value == stack[|stack| - 2]
  {
    if |stack| > 1 then Some(stack[|stack| - 2]) else None
  }

  /** The top element's value `v` after the validator, and the validator's error if it threw.
      The path names the open ancestors and the element; the current value is what the parent
      already holds under the element's name. */
  function Validated(s: Settings, stack: seq<Frame>, v: Value): (r: (Value, Option<string>))
    requires |stack| > 0
    ensures s.opts.validator.None? ==> r == (v, None)
    ensures r.1.None? && s.opts.validator.Some? ==>
      s.opts.validator.value(XPath(Names(stack[..|stack| - 1]), Top(stack).name), Existing(Parent(stack), Top(stack).name), v)
        == Accept(r.0)
    ensures r.1.Some? ==> r.0 == v
  {
    var f := Top(stack);
    Validate(s.opts, XPath(Names(stack[..|stack| - 1]), f.name), Existing(Parent(stack), f.name), v)
  }

  /** One tokenizer callback. After an exception nothing more happens. */
  function Step(s: Settings, st: State, e: Event): (r: Outcome)
    ensures st.halted ==> r == Outcome(st, [])
    ensures (st.halted ==> r.state.halted) && (st.ended ==> r.state.ended) && (st.errThrown ==> r.state.errThrown)
    ensures !st.errThrown && r.state.errThrown ==> |r.signals| > 0
    ensures !st.ended && r.state.ended ==> |r.signals| > 0
    ensures !st.halted && r.state.halted ==> |r.signals| > 0 || st.errThrown || st.ended
    ensures e.EndOfInput? && !st.halted && !st.ended ==> r.signals == [End(st.result)]
    ensures e.EndOfInput? && st.ended ==> r.signals == []
    ensures e.TokenizerError? && !st.halted ==>
      r.signals == (if st.errThrown then [] else [Error(Malformed(e.message))]) && !r.state.halted
    ensures e.OpenTag? || e.TextNode? || e.CDataNode? ==> r.signals == []
    ensures GuardedCount(r.signals) <= (if st.errThrown then 0 else 1)
    ensures GuardedCount(r.signals) > 0 ==> r.state.errThrown
    ensures st.ended ==> Error(Fault) !in r.signals
    ensures |r.signals| <= 2
  {
    if st.halted then Outcome(st, [])
    else
      match e
      case OpenTag(name, attrs, uri, local) =>
        Outcome(st.(stack := st.stack + [OpenFrame(s, name, attrs, uri, local)]), [])
      case TextNode(t) => Outcome(st.(stack := OnText(s.opts, st.stack, t)), [])
      case CDataNode(t) => Outcome(st.(stack := OnCData(s.opts, st.stack, t)), [])
      case CloseTag => Close(s, st)
      case EndOfInput =>
        if st.ended then Outcome(st, []) else Outcome(st.(ended := true), [End(st.result)])
      case TokenizerError(msg) =>
        if st.errThrown then Outcome(st, []) else Outcome(st.(errThrown := true), [Error(Malformed(msg))])
  }

  /** The callbacks of one run, in order. */
  function Run(s: Settings, st: State, es: seq<Event>): (r: Outcome)
    ensures |r.signals| <= 2 * |es|
    ensures st.halted ==> r == Outcome(st, [])
    ensures (st.halted ==> r.state.halted) && (st.ended ==> r.state.ended) && (st.errThrown ==> r.state.errThrown)
    decreases |es|
  {
    if |es| == 0 then Outcome(st, [])
    else
      var first := Step(s, st, es[0]);
      var rest := Run(s, first.state, es[1..]);
      Outcome(rest.state, first.signals + rest.signals)
  }

  /** The `errThrown` guard works: a run reports at most one tokenizer error or exception, and
      none once one was reported. */
  lemma {:induction false} GuardedAtMostOnce(s: Settings, st: State, es: seq<Event>)
    ensures GuardedCount(Run(s, st, es).signals) <= (if st.errThrown then 0 else 1)
    ensures GuardedCount(Run(s, st, es).signals) > 0 ==> Run(s, st, es).state.errThrown
    decreases |es|
  {
    if |es| > 0 {
      var first := Step(s, st, es[0]);
      var rest := Run(s, first.state, es[1..]);
      GuardedAtMostOnce(s, first.state, es[1..]);
      GuardedCountAppend(first.signals, rest.signals);
    }
  }

  /** Once the document has ended, no exception is reported as an error. */
  lemma {:induction false} NoFaultAfterEnd(s: Settings, st: State, es: seq<Event>)
    requires st.ended
    ensures Error(Fault) !in Run(s, st, es).signals
    decreases |es|
  {
    if |es| > 0 {
      var first := Step(s, st, es[0]);
      NoFaultAfterEnd(s, first.state, es[1..]);
    }
  }

  /** A run that reaches the end of input emits something: the flags that silence the parser
      are only ever raised together with an event. */
  lemma {:induction false} EndOfInputAnswers(s: Settings, st: State, es: seq<Event>)
    requires !st.ended && !st.errThrown && !st.halted
    requires EndOfInput in es
    ensures |Run(s, st, es).signals| > 0
    decreases |es|
  {
    var first := Step(s, st, es[0]);
    if |first.signals| == 0 {
      assert es[0] != EndOfInput;
      assert EndOfInput in es[1..];
      EndOfInputAnswers(s, first.state, es[1..]);
    }
  }

  /** `parseString`: a missing input is an error, a blank one ends with `null`, anything else
      is fed to the tokenizer without its byte-order mark and closed, which ends the input.
      `tokenize` stands for the tokenizer: the callbacks it makes while reading the text and
      checking it at close, before its final end callback. */
  function ParseString(s: Settings, input: Option<string>, tokenize: string -> seq<Event>): (r: seq<Signal>)
    ensures input.None? ==> r == [Error(MissingInput)]
    ensures input.Some? && IsBlank(input.value) ==> r == [End(Null)]
    ensures input.Some? && !IsBlank(input.value) ==>
      r == Run(s, Fresh, tokenize(StripBOM(input.value)) + [EndOfInput]).signals
  {
    match Precheck(input)
    case Missing => [Error(MissingInput)]
    case Blank => [End(Null)]
    case Feed(text) => Run(s, Fresh, tokenize(text) + [EndOfInput]).signals
  }

  /** Whatever the input and whatever the tokenizer reports, `parseString` emits at least one
      event, and at most one error passes the `errThrown` guard. */
  lemma ParseStringAnswers(s: Settings, input: Option<string>, tokenize: string -> seq<Event>)
    ensures |ParseString(s, input, tokenize)| > 0
    ensures GuardedCount(ParseString(s, input, tokenize)) <= 1
  {
    if input.Some? && !IsBlank(input.value) {
      var es := tokenize(StripBOM(input.value)) + [EndOfInput];
      assert es[|es| - 1] == EndOfInput;
      EndOfInputAnswers(s, Fresh, es);
      GuardedAtMostOnce(s, Fresh, es);
    }
  }

  /** In callback mode the callback receives the first event; the error and end listeners
      reset the parser, so later events reach no one. */
  function Deliver(signals: seq<Signal>): (r: Option<Signal>)
    ensures r.None? <==> |signals| == 0
    ensures r.Some? ==> r.value == signals[0]
  {
    if |signals| == 0 then None else Some(signals[0])
  }

  /** The callback is always called. */
  lemma CallbackAlwaysCalled(s: Settings, input: Option<string>, tokenize: string -> seq<Event>)
    ensures Deliver(ParseString(s, input, tokenize)).Some?
  {
    ParseStringAnswers(s, input, tokenize);
  }
}

=== FILE: frames.dfy ===
/** The frame of one open element and the builder's handlers that change frames:
    `_assignOrPush`, `_openTag`, `_onText` and `_onCData`. */
module Frames {
  import opened Values
  import opened Text
  import opened Processors
  import opened Options

  /** An attribute as the tokenizer reports it. Without `xmlns` the value is a string; with it,
      the tokenizer reports an object (name, value, prefix, local, uri). */
  datatype Attribute = Attribute(name: string, value: Value)

  /** The namespace pair stored under `xmlnskey` when `xmlns` is on. */
  datatype Namespace = Namespace(uri: string, local: string)

  /** One open element. The source keeps all of this in a single object; here the reserved
      slots are separate fields:
      - `name`: `'#name'`, the processed tag name;
      - `text`: the `charkey` slot, the concatenated text and CDATA seen directly inside;
      - `cdata`: the `cdata` flag, set by a CDATA section;
      - `attrs`: the `attrkey` object (only without `mergeAttrs`, and only once an attribute exists);
      - `ns`: the `xmlnskey` object;
      - `ordered`: the `childkey` array that order-preserving mode appends to;
      - `props`: every other key: merged attributes and finished children, by name. */
  datatype Frame = Frame(
    name: string,
    text: string,
    cdata: bool,
    attrs: Option<map<string, Value>>,
    ns: Option<Namespace>,
    props: map<string, Value>,
    ordered: Option<seq<Value>>)

  /** `_assignOrPush(obj, key, newValue)`: the only place where arrays are made. */
  function AssignOrPush(explicitArray: bool, m: map<string, Value>, key: string, v: Value): (r: map<string, Value>)
    ensures key in r
    ensures key !in m && explicitArray ==> r[key] == Arr([v])
    ensures key !in m && !explicitArray ==> r[key] == v
    ensures key in m ==> r[key] == Arr(AsItems(m[key]) + [v])
    ensures forall k :: k != key ==> (k in r <==> k in m)
    ensures forall k :: k != key && k in m ==> r[k] == m[k]
  {
    if key !in m then m[key := if explicitArray then Arr([v]) else v]
    else m[key := Arr(AsItems(m[key]) + [v])]
  }

  /** `_assignOrPush` applied to each pair in turn, starting from `m`. */
  function AssignAll(explicitArray: bool, m: map<string, Value>, pairs: seq<(string, Value)>): map<string, Value>
  {
    if |pairs| == 0 then m
    else
      var last := pairs[|pairs| - 1];
      AssignOrPush(explicitArray, AssignAll(explicitArray, m, pairs[..|pairs| - 1]), last.0, last.1)
  }

  /** The values paired with `k`, in order. */
  function ValuesFor(pairs: seq<(string, Value)>, k: string): (r: seq<Value>)
    ensures |r| <= |pairs|
  {
    if |pairs| == 0 then []
    else
      var last := pairs[|pairs| - 1];
      ValuesFor(pairs[..|pairs| - 1], k) + (if last.0 == k then [last.1] else [])
  }

  /** Every listed value is paired with `k`, and the list is empty exactly when `k` does not
      occur. */
  lemma {:induction false} ValuesForMembers(pairs: seq<(string, Value)>, k: string)
    ensures forall j :: 0 <= j < |ValuesFor(pairs, k)| ==> (k, ValuesFor(pairs, k)[j]) in pairs
    ensures |ValuesFor(pairs, k)| == 0 <==> forall i :: 0 <= i < |pairs| ==> pairs[i].0 != k
  {
    if |pairs| > 0 {
      var init := pairs[..|pairs| - 1];
      ValuesForMembers(init, k);
      assert forall i :: 0 <= i < |init| ==> init[i] == pairs[i];
    }
  }

  /** `m` holds, for each key that occurs in `pairs`, the array of that key's values in order. */
  ghost predicate Grouped(m: map<string, Value>, pairs: seq<(string, Value)>) {
    && (forall k :: k in m <==> |ValuesFor(pairs, k)| > 0)
    && (forall k :: k in m ==> m[k] == Arr(ValuesFor(pairs, k)))
  }

  /** `m` holds, for each key that occurs in `pairs`, that key's last value. */
  ghost predicate LastWins(m: map<string, Value>, pairs: seq<(string, Value)>) {
    && (forall k :: k in m <==> |ValuesFor(pairs, k)| > 0)
    && (forall k :: k in m ==> m[k] == ValuesFor(pairs, k)[|ValuesFor(pairs, k)| - 1])
  }

  /** With `explicitArray`, assigning a list of pairs groups the values of each key into one
      array, in order: a key seen once still gets a one-element array. */
  lemma AssignAllGroups(pairs: seq<(string, Value)>)
    ensures Grouped(AssignAll(true, map[], pairs), pairs)
  {
    var m := AssignAll(true, map[], pairs);
    forall k ensures k in m <==> |ValuesFor(pairs, k)| > 0 {
      AssignAllGroupsAt(pairs, k);
    }
    forall k | k in m ensures m[k] == Arr(ValuesFor(pairs, k)) {
      AssignAllGroupsAt(pairs, k);
    }
  }

  lemma {:induction false} AssignAllGroupsAt(pairs: seq<(string, Value)>, k: string)
    ensures k in AssignAll(true, map[], pairs) <==> |ValuesFor(pairs, k)| > 0
    ensures k in AssignAll(true, map[], pairs) ==> AssignAll(true, map[], pairs)[k] == Arr(ValuesFor(pairs, k))
  {
    if |pairs| > 0 {
      AssignAllGroupsAt(pairs[..|pairs| - 1], k);
    }
  }

  /** `m` holds, for each key that occurs in `pairs`, its bare value when it occurs once, and
      otherwise an array: the first value's items (or the first value itself) followed by the
      later values. */
  ghost predicate GroupedScalar(m: map<string, Value>, pairs: seq<(string, Value)>) {
    && (forall k :: k in m <==> |ValuesFor(pairs, k)| > 0)
    && (forall k :: k in m && |ValuesFor(pairs, k)| == 1 ==> m[k] == ValuesFor(pairs, k)[0])
    && (forall k :: k in m && |ValuesFor(pairs, k)| >= 2 ==>
          m[k] == Arr(AsItems(ValuesFor(pairs, k)[0]) + ValuesFor(pairs, k)[1..]))
  }

  /** Without `explicitArray`, a key seen once keeps its bare value and a second occurrence turns
      it into an array of all its values. */
  lemma AssignAllScalar(pairs: seq<(string, Value)>)
    ensures GroupedScalar(AssignAll(false, map[], pairs), pairs)
  {
    var m := AssignAll(false, map[], pairs);
    forall k ensures k in m <==> |ValuesFor(pairs, k)| > 0 {
      AssignAllGroupsScalar(pairs, k);
    }
    forall k | k in m && |ValuesFor(pairs, k)| == 1 ensures m[k] == ValuesFor(pairs, k)[0] {
      AssignAllGroupsScalar(pairs, k);
    }
    forall k | k in m && |ValuesFor(pairs, k)| >= 2
      ensures m[k] == Arr(AsItems(ValuesFor(pairs, k)[0]) + ValuesFor(pairs, k)[1..])
    {
      AssignAllGroupsScalar(pairs, k);
    }
  }

  /** One key of `AssignAllScalar`. When the first value is not an array, the array is exactly
      the key's values. */
  lemma {:induction false} AssignAllGroupsScalar(pairs: seq<(string, Value)>, k: string)
    ensures k in AssignAll(false, map[], pairs) <==> |ValuesFor(pairs, k)| > 0
    ensures |ValuesFor(pairs, k)| == 1 ==> AssignAll(false, map[], pairs)[k] == ValuesFor(pairs, k)[0]
    ensures |ValuesFor(pairs, k)| >= 2 ==>
      AssignAll(false, map[], pairs)[k] == Arr(AsItems(ValuesFor(pairs, k)[0]) + ValuesFor(pairs, k)[1..])
    ensures |ValuesFor(pairs, k)| >= 2 && !ValuesFor(pairs, k)[0].Arr? ==>
      AssignAll(false, map[], pairs)[k] == Arr(ValuesFor(pairs, k))
  {
    if |pairs| > 0 {
      var init := pairs[..|pairs| - 1];
      var last := pairs[|pairs| - 1];
      var vs := ValuesFor(init, k);
      var ws := ValuesFor(pairs, k);
      AssignAllGroupsScalar(init, k);
      if last.0 == k {
        assert ws == vs + [last.1];
        if |vs| > 0 {
          assert ws[0] == vs[0];
          assert ws[1..] == vs[1..] + [last.1];
        }
      } else {
        assert ws == vs;
      }
      if |ws| >= 2 && !ws[0].Arr? {
        assert AsItems(ws[0]) + ws[1..] == ws;
      }
    }
  }

  /** Plain assignment of each pair in turn: a repeated key keeps its last value. */
  function Overwrite(pairs: seq<(string, Value)>): map<string, Value>
  {
    if |pairs| == 0 then map[]
    else
      var last := pairs[|pairs| - 1];
      Overwrite(pairs[..|pairs| - 1])[last.0 := last.1]
  }

  /** Plain assignment keeps exactly the keys that occur, each with its last value. */
  lemma OverwriteLastWins(pairs: seq<(string, Value)>)
    ensures LastWins(Overwrite(pairs), pairs)
  {
    forall k ensures k in Overwrite(pairs) <==> |ValuesFor(pairs, k)| > 0 {
      OverwriteAt(pairs, k);
    }
    forall k | k in Overwrite(pairs)
      ensures Overwrite(pairs)[k] == ValuesFor(pairs, k)[|ValuesFor(pairs, k)| - 1]
    {
      OverwriteAt(pairs, k);
    }
  }

  lemma {:induction false} OverwriteAt(pairs: seq<(string, Value)>, k: string)
    ensures k in Overwrite(pairs) <==> |ValuesFor(pairs, k)| > 0
    ensures k in Overwrite(pairs) ==> Overwrite(pairs)[k] == ValuesFor(pairs, k)[|ValuesFor(pairs, k)| - 1]
  {
    if |pairs| > 0 {
      OverwriteAt(pairs[..|pairs| - 1], k);
    }
  }

  /** The attributes after the name and value processors. */
  function Processed(o: Options, attrs: seq<Attribute>): (r: seq<(string, Value)>)
    ensures |r| == |attrs|
    ensures forall i :: 0 <= i < |attrs| ==>
      r[i] == (ProcessName(o.attrNameProcessors, attrs[i].name), ProcessName(o.attrValueProcessors, attrs[i].value))
  {
    seq(|attrs|, i requires 0 <= i < |attrs| =>
      (ProcessName(o.attrNameProcessors, attrs[i].name), ProcessName(o.attrValueProcessors, attrs[i].value)))
  }

  /** `_openTag`: the frame pushed for a new element. */
  function OpenFrame(s: Settings, name: string, attrs: seq<Attribute>, uri: string, local: string): (f: Frame)
    ensures f.name == ProcessName(s.opts.tagNameProcessors, name)
    ensures f.text == "" && !f.cdata && f.ordered.None?
    ensures f.attrs.Some? <==> !s.opts.ignoreAttrs && !s.opts.mergeAttrs && |attrs| > 0
    ensures f.attrs.Some? ==> LastWins(f.attrs.value, Processed(s.opts, attrs))
    ensures s.opts.ignoreAttrs || !s.opts.mergeAttrs ==> f.props == map[]
    ensures !s.opts.ignoreAttrs && s.opts.mergeAttrs && s.opts.explicitArray ==>
      Grouped(f.props, Processed(s.opts, attrs))
    ensures !s.opts.ignoreAttrs && s.opts.mergeAttrs && !s.opts.explicitArray ==>
      GroupedScalar(f.props, Processed(s.opts, attrs))
    ensures s.opts.xmlns ==> f.ns == Some(Namespace(uri, local))
    ensures !s.opts.xmlns ==> f.ns.None?
  {
    var o := s.opts;
    var pairs := Processed(o, attrs);
    AssignAllGroups(pairs);
    AssignAllScalar(pairs);
    OverwriteLastWins(pairs);
    Frame(
      name := ProcessName(o.tagNameProcessors, name),
      text := "",
      cdata := false,
      attrs := if !o.ignoreAttrs && !o.mergeAttrs && |attrs| > 0 then Some(Overwrite(pairs)) else None,
      ns := if o.xmlns then Some(Namespace(uri, local)) else None,
      props := if !o.ignoreAttrs && o.mergeAttrs then AssignAll(o.explicitArray, map[], pairs) else map[],
      ordered := None)
  }

  /** The `__text__` pseudo-child recorded for one text event in order-preserving mode. */
  function TextChild(o: Options, text: string): (v: Value)
    ensures v.Obj? && o.charkey in v.fields
    ensures !o.normalize ==> v.fields[o.charkey] == Str(text)
    ensures o.normalize ==> v.fields[o.charkey] == Str(NormalizeSpace(text))
    ensures o.normalize ==> IsTrimmed(v.fields[o.charkey].s) && NoDoubleSpace(v.fields[o.charkey].s)
    ensures v.fields.Keys == {"#name", o.charkey}
    ensures o.charkey != "#name" ==> "#name" in v.fields && v.fields["#name"] == Str("__text__")
  {
    Obj(map["#name" := Str("__text__"), o.charkey := Str(if o.normalize then NormalizeSpace(text) else text)])
  }

  /** Whether a text event also becomes a `__text__` pseudo-child. */
  predicate WantsTextChild(o: Options, text: string) {
    && o.explicitChildren && o.preserveChildrenOrder && o.charsAsChildren
    && (o.includeWhiteChars || Trim(RemoveEscapedNewlines(text)) != "")
  }

  /** `_onText`: appends to the top frame's text (and possibly its ordered children); ignored
      when no element is open; every other frame is left alone. */
  function OnText(o: Options, stack: seq<Frame>, text: string): (r: seq<Frame>)
    ensures |r| == |stack|
    ensures |stack| == 0 ==> r == stack
    ensures forall i :: 0 <= i < |stack| - 1 ==> r[i] == stack[i]
    ensures |stack| > 0 ==> r[|r| - 1].text == stack[|stack| - 1].text + text
    ensures |stack| > 0 ==>
      r[|r| - 1] == stack[|stack| - 1].(text := r[|r| - 1].text, ordered := r[|r| - 1].ordered)
    ensures |stack| > 0 && !WantsTextChild(o, text) ==> r[|r| - 1].ordered == stack[|stack| - 1].ordered
    ensures |stack| > 0 && WantsTextChild(o, text) ==>
      r[|r| - 1].ordered == Some(stack[|stack| - 1].ordered.GetOr([]) + [TextChild(o, text)])
  {
    if |stack| == 0 then stack
    else
      var top := stack[|stack| - 1];
      var ordered := if WantsTextChild(o, text) then Some(top.ordered.GetOr([]) + [TextChild(o, text)]) else top.ordered;
      stack[..|stack| - 1] + [top.(text := top.text + text, ordered := ordered)]
  }

  /** A text event makes a pseudo-child exactly when the three modes are on and either white
      text is wanted or something other than whitespace and literal `\n` pairs remains. */
  lemma WantsTextChildIff(o: Options, text: string)
    ensures WantsTextChild(o, text) <==>
      o.explicitChildren && o.preserveChildrenOrder && o.charsAsChildren
      && (o.includeWhiteChars || !IsBlank(RemoveEscapedNewlines(text)))
    ensures '\\' !in text ==> (WantsTextChild(o, text) <==>
      o.explicitChildren && o.preserveChildrenOrder && o.charsAsChildren && (o.includeWhiteChars || !IsBlank(text)))
  {
  }

  /** `_onCData`: the same as text, and the top frame is marked as holding CDATA. */
  function OnCData(o: Options, stack: seq<Frame>, text: string): (r: seq<Frame>)
    ensures |r| == |stack|
    ensures |stack| == 0 ==> r == stack
    ensures forall i :: 0 <= i < |stack| - 1 ==> r[i] == stack[i]
    ensures |stack| > 0 ==> r[|r| - 1].cdata
    ensures |stack| > 0 ==> r[|r| - 1] == OnText(o, stack, text)[|stack| - 1].(cdata := true)
  {
    var t := OnText(o, stack, text);
    if |t| == 0 then t else t[..|t| - 1] + [t[|t| - 1].(cdata := true)]
  }
}

=== FILE: options.dfy ===
/** Parser options (`DEFAULTS`) and what the constructor derives from them. */
module Options {
  import opened Values
  import opened Processors

  /** Which copy of the `Parser` class is meant: `index.js` (Current) or the older
      `lib/xml2js.js` (Legacy). Within this model they differ only in the initial value of
      `emptyStr`; the copies also wrap the root differently, which matters only for a root
      named `__proto__`, and that is not modelled. */
  datatype Edition = Current | Legacy

  /** What a validator decides for one node: a replacement value, or a thrown validation error. */
  datatype Verdict = Accept(value: Value) | Reject(message: string)

  /** `validator(xpath, currentValue, newValue)`. */
  type Validator = (string, Value, Value) -> Verdict

  /** The recognised options that shape the tree. `async`, `chunkSize` and `strict` only steer
      the tokenizer and its scheduling and are not part of this record. A processor list of
      `null` behaves as the empty list, so lists are plain sequences here. Name processors map
      strings to strings; value processors may return any value (`parseBooleans` returns a
      boolean), and attribute value processors receive objects in `xmlns` mode. */
  datatype Options = Options(
    explicitCharkey: bool,
    trim: bool,
    normalize: bool,
    normalizeTags: bool,
    attrkey: string,
    charkey: string,
    explicitArray: bool,
    ignoreAttrs: bool,
    mergeAttrs: bool,
    explicitRoot: bool,
    validator: Option<Validator>,
    xmlns: bool,
    explicitChildren: bool,
    preserveChildrenOrder: bool,
    childkey: string,
    charsAsChildren: bool,
    includeWhiteChars: bool,
    attrNameProcessors: seq<string -> string>,
    attrValueProcessors: seq<Value -> Value>,
    tagNameProcessors: seq<string -> string>,
    valueProcessors: seq<Value -> Value>,
    emptyTag: Value)

  /** `DEFAULTS`. */
  const Defaults: Options := Options(
    explicitCharkey := false,
    trim := false,
    normalize := false,
    normalizeTags := false,
    attrkey := "$",
    charkey := "_",
    explicitArray := true,
    ignoreAttrs := false,
    mergeAttrs := false,
    explicitRoot := true,
    validator := None,
    xmlns := false,
    explicitChildren := false,
    preserveChildrenOrder := false,
    childkey := "$$",
    charsAsChildren := false,
    includeWhiteChars := false,
    attrNameProcessors := [],
    attrValueProcessors := [],
    tagNameProcessors := [],
    valueProcessors := [],
    emptyTag := Str(""))

  /** A constructed parser's settings: its options after the constructor's adjustments, the key
      namespace information is stored under, and which copy of the class it is. */
  datatype Settings = Settings(opts: Options, xmlnskey: Option<string>, edition: Edition)

  /** The constructor: `xmlnskey` is `attrkey + 'ns'` when `xmlns` is on, and `normalizeTags`
      puts lower-casing in front of the tag-name processors. */
  function Derive(o: Options, edition: Edition): (s: Settings)
    ensures s.edition == edition
    ensures s.xmlnskey.Some? <==> o.xmlns
    ensures s.xmlnskey.Some? ==> s.xmlnskey.value == o.attrkey + "ns"
    ensures o.normalizeTags ==>
      forall x :: ProcessName(s.opts.tagNameProcessors, x) == ProcessName(o.tagNameProcessors, Normalize(x))
    ensures !o.normalizeTags ==>
      forall x :: ProcessName(s.opts.tagNameProcessors, x) == ProcessName(o.tagNameProcessors, x)
    ensures s.opts == o.(tagNameProcessors := s.opts.tagNameProcessors)
  {
    var tags := if o.normalizeTags then [Normalize] + o.tagNameProcessors else o.tagNameProcessors;
    NormalizeRunsFirst(o.tagNameProcessors);
    Settings(o.(tagNameProcessors := tags), if o.xmlns then Some(o.attrkey + "ns") else None, edition)
  }

  lemma NormalizeRunsFirst(ps: seq<string -> string>)
    ensures forall x :: ProcessName([Normalize] + ps, x) == ProcessName(ps, Normalize(x))
  {
    forall x ensures ProcessName([Normalize] + ps, x) == ProcessName(ps, Normalize(x)) {
      ProcessNameAppend([Normalize], ps, x);
      assert ProcessName([Normalize], x) == ProcessName([Normalize][1..], Normalize(x));
      assert [Normalize][1..] == [];
    }
  }

  /** The settings of `new Parser()` in each copy of the class. */
  function DefaultSettings(edition: Edition): (s: Settings)
    ensures s.opts == Defaults && s.xmlnskey.None? && s.edition == edition
  {
    Derive(Defaults, edition)
  }
}

=== FILE: processors.dfy ===
/** The processor chain (`processName`), the built-in processors (`PROCESSORS`, except
    `parseNumbers`) and the input preparation that `parseString` does before tokenizing. */
module Processors {
  import opened Values
  import opened Text

  /** `processName(processors, name)`: the processors applied one after the other, first to last. */
  function ProcessName<T>(ps: seq<T -> T>, x: T): T
    decreases |ps|
  {
    if |ps| == 0 then x else ProcessName(ps[1..], ps[0](x))
  }

  /** Running two chains back to back is running their concatenation: the chain is a left fold. */
  lemma {:induction false} ProcessNameAppend<T>(ps: seq<T -> T>, qs: seq<T -> T>, x: T)
    ensures ProcessName(ps + qs, x) == ProcessName(qs, ProcessName(ps, x))
    decreases |ps|
  {
    if |ps| == 0 {
      assert ps + qs == qs;
    } else {
      assert (ps + qs)[1..] == ps[1..] + qs;
      ProcessNameAppend(ps[1..], qs, ps[0](x));
    }
  }

  /** The empty chain is the identity, and a chain of two runs its first member first. */
  lemma ProcessNameOrder<T>(f: T -> T, g: T -> T, x: T)
    ensures ProcessName([], x) == x
    ensures ProcessName([f, g], x) == g(f(x))
  {
    var fg: seq<T -> T> := [f, g];
    assert fg[1..] == [g];
    assert ProcessName([g], f(x)) == ProcessName([g][1..], g(f(x)));
    assert [g][1..] == [];
  }

  /** Every processor of a value chain maps strings to strings. */
  ghost predicate KeepsStrings(ps: seq<Value -> Value>) {
    forall i, x: Value :: 0 <= i < |ps| && x.Str? ==> ps[i](x).Str?
  }

  /** A chain of processors that keep strings strings turns a string into a string. */
  lemma {:induction false} ProcessNameKeepsStrings(ps: seq<Value -> Value>, x: Value)
    requires KeepsStrings(ps) && x.Str?
    ensures ProcessName(ps, x).Str?
    decreases |ps|
  {
    if |ps| > 0 {
      assert ps[0](x).Str?;
      assert KeepsStrings(ps[1..]) by {
        forall i, y: Value | 0 <= i < |ps[1..]| && y.Str? ensures ps[1..][i](y).Str? {
          assert ps[1..][i] == ps[i + 1];
        }
      }
      ProcessNameKeepsStrings(ps[1..], ps[0](x));
    }
  }

  /** The source's loop over the processor list, which computes the same fold. */
  method ProcessNameLoop<T>(ps: seq<T -> T>, x: T) returns (r: T)
    ensures r == ProcessName(ps, x)
  {
    r := x;
    var i := 0;
    while i < |ps|
      invariant 0 <= i <= |ps|
      invariant ProcessName(ps[i..], r) == ProcessName(ps, x)
    {
      assert ps[i..][1..] == ps[i + 1..];
      r := ps[i](r);
      i := i + 1;
    }
    assert ps[i..] == [];
  }

  /** `PROCESSORS.normalize`: lower-cases the whole string. */
  function Normalize(s: string): (r: string)
    ensures |r| == |s|
    ensures forall i :: 0 <= i < |r| ==> !('A' <= r[i] <= 'Z')
    ensures forall i :: 0 <= i < |r| ==> r[i] == s[i] || ('A' <= s[i] <= 'Z' && r[i] as int == s[i] as int + 32)
  {
    Lower(s)
  }

  /** Lower-casing twice is lower-casing once. */
  lemma NormalizeIdempotent(s: string)
    ensures Normalize(Normalize(s)) == Normalize(s)
  {
  }

  /** `PROCESSORS.firstCharLowerCase`: lower-cases only the first character. */
  function FirstCharLowerCase(s: string): (r: string)
    ensures |r| == |s|
    ensures |s| > 0 ==> r[0] == LowerChar(s[0])
    ensures |s| > 0 ==> r[1..] == s[1..]
  {
    if |s| == 0 then [] else [LowerChar(s[0])] + s[1..]
  }

  predicate StartsWith(s: string, prefix: string) {
    |prefix| <= |s| && s[..|prefix|] == prefix
  }

  /** The index of the first line terminator, or the length when there is none. */
  function LineEnd(s: string): (k: nat)
    ensures k <= |s|
    ensures forall i :: 0 <= i < k ==> !IsLineTerminator(s[i])
    ensures k < |s| ==> IsLineTerminator(s[k])
  {
    if |s| == 0 || IsLineTerminator(s[0]) then 0 else 1 + LineEnd(s[1..])
  }

  lemma LineEndOfSuffix(s: string, j: nat)
    requires j <= LineEnd(s)
    ensures LineEnd(s[j..]) == LineEnd(s) - j
  {
    var k := LineEnd(s);
    LineEndIs(s[j..], k - j);
  }

  lemma {:induction false} LineEndIs(s: string, k: nat)
    requires k <= |s|
    requires forall i :: 0 <= i < k ==> !IsLineTerminator(s[i])
    requires k < |s| ==> IsLineTerminator(s[k])
    ensures LineEnd(s) == k
  {
    if k > 0 {
      LineEndIs(s[1..], k - 1);
    }
  }

  /** The position of the last occurrence of `c`, if any. */
  function LastIndexOf(s: string, c: char): (r: Option<nat>)
    ensures r.None? <==> c !in s
    ensures r.Some? ==> r.value < |s| && s[r.value] == c
    ensures r.Some? ==> forall i :: r.value < i < |s| ==> s[i] != c
  {
    if |s| == 0 then None
    else if s[|s| - 1] == c then Some(|s| - 1)
    else
      assert s == s[..|s| - 1] + [s[|s| - 1]];
      LastIndexOf(s[..|s| - 1], c)
  }

  /** `PROCESSORS.stripPrefix`, the replacement of `/(?!xmlns)^.*:/` by nothing: unless the name
      starts with `xmlns`, everything up to and including the last ':' of the first line goes. */
  function StripPrefix(s: string): (r: string)
    ensures StartsWith(s, "xmlns") ==> r == s
    ensures |r| <= |s| && r == s[|s| - |r|..]
    ensures |r| < |s| ==> s[|s| - |r| - 1] == ':'
    ensures forall i :: 0 <= i < |s| - |r| ==> !IsLineTerminator(s[i])
    ensures !StartsWith(s, "xmlns") ==> ':' !in r[..LineEnd(r)]
  {
    if StartsWith(s, "xmlns") then s
    else
      var line := s[..LineEnd(s)];
      match LastIndexOf(line, ':')
      case None => s
      case Some(j) =>
        LineEndOfSuffix(s, j + 1);
        assert s[j + 1..][..LineEnd(s[j + 1..])] == line[j + 1..];
        s[j + 1..]
  }

  /** Stripping twice strips no more than stripping once. */
  lemma StripPrefixIdempotent(s: string)
    ensures StripPrefix(StripPrefix(s)) == StripPrefix(s)
  {
    var r := StripPrefix(s);
    if !StartsWith(s, "xmlns") && !StartsWith(r, "xmlns") {
      assert LastIndexOf(r[..LineEnd(r)], ':').None?;
    }
  }

  /** `BOOL_MATCH.test(s)` for one of the two words: an ASCII case-insensitive exact match. */
  predicate EqualsIgnoringCase(s: string, word: string) {
    |s| == |word| && forall i :: 0 <= i < |s| ==> LowerChar(s[i]) == LowerChar(word[i])
  }

  lemma EqualsIgnoringCaseIsLower(s: string, word: string)
    requires Lower(word) == word
    ensures EqualsIgnoringCase(s, word) <==> Lower(s) == word
  {
    if Lower(s) == word {
      assert forall i :: 0 <= i < |s| ==> LowerChar(word[i]) == word[i] by {
        forall i | 0 <= i < |s| ensures LowerChar(word[i]) == word[i] {
          assert Lower(word)[i] == LowerChar(word[i]);
        }
      }
    }
    if EqualsIgnoringCase(s, word) {
      assert forall i :: 0 <= i < |s| ==> Lower(s)[i] == word[i] by {
        forall i | 0 <= i < |s| ensures Lower(s)[i] == word[i] {
          assert Lower(word)[i] == LowerChar(word[i]);
        }
      }
    }
  }

  /** `PROCESSORS.parseBooleans`: a case-insensitive exact `true` or `false` becomes that boolean,
      anything else is returned unchanged. */
  function ParseBooleans(s: string): (r: Value)
    ensures r.Bool? <==> Lower(s) == "true" || Lower(s) == "false"
    ensures r.Bool? ==> (r.b <==> Lower(s) == "true")
    ensures !r.Bool? ==> r == Str(s)
  {
    EqualsIgnoringCaseIsLower(s, "true");
    EqualsIgnoringCaseIsLower(s, "false");
    if EqualsIgnoringCase(s, "true") then Bool(true)
    else if EqualsIgnoringCase(s, "false") then Bool(false)
    else Str(s)
  }

  /** `parseBooleans` in a value-processor chain, where it receives the element's text. Only the
      string case is modelled; any other value is passed through. */
  function ParseBooleansValue(v: Value): (r: Value)
    ensures v.Str? ==> r == ParseBooleans(v.s)
    ensures !v.Str? ==> r == v
  {
    if v.Str? then ParseBooleans(v.s) else v
  }

  const BOM: char := '\U{FEFF}'

  /** `stripBOM`: removes one leading byte-order mark. */
  function StripBOM(s: string): (r: string)
    ensures |s| > 0 && s[0] == BOM ==> r == s[1..]
    ensures !(|s| > 0 && s[0] == BOM) ==> r == s
  {
    if |s| > 0 && s[0] == BOM then s[1..] else s
  }

  /** The byte-order mark is whitespace, so whether the blank check runs before or after
      stripping it makes no difference. */
  lemma {:induction false} BlankCheckIgnoresBOM(s: string)
    ensures IsBlank(StripBOM(s)) <==> IsBlank(s)
  {
    if |s| > 0 && s[0] == BOM {
      assert s == [s[0]] + s[1..];
      BlankIffNoNonSpace(s);
      BlankIffNoNonSpace(s[1..]);
    }
  }

  /** What `parseString` decides before any text reaches the tokenizer. */
  datatype Prepared = Missing | Blank | Feed(text: string)

  /** The input checks of `parseString`: an absent input fails (`toString` of null), a blank
      input finishes with no document, anything else is fed without its byte-order mark. */
  function Precheck(input: Option<string>): (r: Prepared)
    ensures r.Missing? <==> input.None?
    ensures r.Blank? <==> input.Some? && IsBlank(input.value)
    ensures r.Feed? ==> r.text == StripBOM(input.value) && !IsBlank(r.text)
  {
    match input
    case None => Missing
    case Some(s) =>
      BlankCheckIgnoresBOM(s);
      if IsBlank(s) then Blank else Feed(StripBOM(s))
  }
}

=== FILE: scenarios.dfy ===
/** Documents run through the model as sequences of tokenizer callbacks, mostly the callbacks a
    strict tokenizer makes for a document of the repository's tests, and the events the parser
    emits. A few sequences are ones the tokenizer never sends; their comments say so. */
module Scenarios {
  import opened Values
  import opened Text
  import opened Processors
  import opened Options
  import opened Frames
  import opened Collapse
  import opened Driver

  const CurrentDefaults: Settings := DefaultSettings(Current)

  /** One more step in front of a run. */
  lemma RunFirst(s: Settings, st: State, e: Event, es: seq<Event>)
    ensures Run(s, st, [e] + es).signals == Step(s, st, e).signals + Run(s, Step(s, st, e).state, es).signals
  {
    assert ([e] + es)[1..] == es;
  }

  /** Opening an element in a fresh parser makes it the only open one. */
  lemma OpenFirst(s: Settings, name: string)
    ensures Step(s, Fresh, OpenTag(name, [], "", "")) == Outcome(Fresh.(stack := [OpenFrame(s, name, [], "", "")]), [])
  {
    assert [] + [OpenFrame(s, name, [], "", "")] == [OpenFrame(s, name, [], "", "")];
  }

  /** The state after the root `name` closed with value `v`. */
  function Ended(name: string, v: Value): State {
    Fresh.(result := Obj(map[name := v]), ended := true)
  }

  /** Closing the only open element, with neither validator nor child reshaping, ends the
      document with that element under its name. */
  lemma CloseOnly(s: Settings, f: Frame)
    requires s.opts.validator.None? && !s.opts.explicitChildren && s.opts.explicitRoot
    requires NodeValue(s, f).Some?
    ensures Step(s, Fresh.(stack := [f]), CloseTag)
      == Outcome(Ended(f.name, NodeValue(s, f).value), [End(Obj(map[f.name := NodeValue(s, f).value]))])
  {
    var v := NodeValue(s, f).value;
    assert Validated(s, [f], v) == (v, None);
    assert Reshape(s, v, None) == Reshaped(v, None);
  }

  /** After the document ended, the end of input emits nothing. */
  lemma EndAfterEnd(s: Settings, st: State)
    requires st.ended && !st.halted
    ensures Run(s, st, [EndOfInput]).signals == []
  {
    assert Step(s, st, EndOfInput).signals == [];
  }

  /** A document of one element with nothing inside, with neither validator nor child
      reshaping, ends with that element's value. */
  lemma LoneElement(s: Settings, name: string)
    requires s.opts.validator.None? && !s.opts.explicitChildren && s.opts.explicitRoot
    ensures var f := OpenFrame(s, name, [], "", "");
      && NodeValue(s, f).Some?
      && Run(s, Fresh, [OpenTag(name, [], "", ""), CloseTag, EndOfInput]).signals
           == [End(Obj(map[f.name := NodeValue(s, f).value]))]
  {
    var f := OpenFrame(s, name, [], "", "");
    OpenFirst(s, name);
    CloseOnly(s, f);
    RunFirst(s, Fresh, OpenTag(name, [], "", ""), [CloseTag, EndOfInput]);
    RunFirst(s, Fresh.(stack := [f]), CloseTag, [EndOfInput]);
    EndAfterEnd(s, Ended(f.name, NodeValue(s, f).value));
  }

  const Root: Frame := OpenFrame(CurrentDefaults, "root", [], "", "")

  lemma RootValue()
    ensures Root.name == "root" && NodeValue(CurrentDefaults, Root) == Some(Str(""))
  {
    assert Rest(CurrentDefaults.opts, CurrentDefaults.xmlnskey, Root) == map[];
  }

  /** `<root></root>` with the default options ends with `{root: ''}`. */
  lemma EmptyRoot()
    ensures Run(CurrentDefaults, Fresh, [OpenTag("root", [], "", ""), CloseTag, EndOfInput]).signals
      == [End(Obj(map["root" := Str("")]))]
  {
    LoneElement(CurrentDefaults, "root");
    RootValue();
  }

  const Xml: Frame := OpenFrame(CurrentDefaults, "xml", [], "", "")
  const Foo: Frame := OpenFrame(CurrentDefaults, "foo", [], "", "")
  const FooGroup: map<string, Value> := map["foo" := Arr([Str("bar")])]

  lemma NestedOpens()
    ensures Step(CurrentDefaults, Step(CurrentDefaults, Fresh, OpenTag("xml", [], "", "")).state, OpenTag("foo", [], "", ""))
      == Outcome(Fresh.(stack := [Xml, Foo]), [])
  {
  }

  lemma NestedTextEvent()
    ensures Step(CurrentDefaults, Fresh.(stack := [Xml, Foo]), TextNode("bar"))
      == Outcome(Fresh.(stack := [Xml, Foo.(text := "bar")]), [])
  {
    assert "" + "bar" == "bar";
  }

  lemma NestedInnerClose()
    ensures Step(CurrentDefaults, Fresh.(stack := [Xml, Foo.(text := "bar")]), CloseTag)
      == Outcome(Fresh.(stack := [Xml.(props := FooGroup)]), [])
  {
    var s := CurrentDefaults;
    var st := Fresh.(stack := [Xml, Foo.(text := "bar")]);
    FooValue();
    assert Validated(s, st.stack, Str("bar")) == (Str("bar"), None);
    assert Reshape(s, Str("bar"), Parent(st.stack)) == Reshaped(Str("bar"), Some(Xml));
  }

  lemma FooValue()
    ensures NodeValue(CurrentDefaults, Foo.(text := "bar")) == Some(Str("bar"))
  {
    var s := CurrentDefaults;
    var f := Foo.(text := "bar");
    assert !IsBlank("bar") by { assert "bar"[0] == 'b'; }
    assert Rest(s.opts, s.xmlnskey, f) == map[];
    TextOnlyElement(s, f);
  }

  lemma NestedOuterClose()
    ensures Step(CurrentDefaults, Fresh.(stack := [Xml.(props := FooGroup)]), CloseTag).signals
      == [End(Obj(map["xml" := Obj(FooGroup)]))]
  {
    var s := CurrentDefaults;
    var x := Xml.(props := FooGroup);
    assert Rest(s.opts, s.xmlnskey, x) == FooGroup;
    assert NodeValue(s, x) == Some(Obj(FooGroup));
  }

  /** `<xml><foo>bar</foo></xml>` ends with `{xml: {foo: ['bar']}}`: children are grouped in
      arrays by name, and an element holding only text becomes that text. */
  lemma NestedText()
    ensures Run(CurrentDefaults, Fresh,
      [OpenTag("xml", [], "", ""), OpenTag("foo", [], "", ""), TextNode("bar"), CloseTag, CloseTag]).signals
      == [End(Obj(map["xml" := Obj(map["foo" := Arr([Str("bar")])])]))]
  {
    var s := CurrentDefaults;
    var o1 := Step(s, Fresh, OpenTag("xml", [], "", ""));
    NestedOpens();
    NestedTextEvent();
    NestedInnerClose();
    NestedOuterClose();
    RunFirst(s, Fresh, OpenTag("xml", [], "", ""), [OpenTag("foo", [], "", ""), TextNode("bar"), CloseTag, CloseTag]);
    RunFirst(s, o1.state, OpenTag("foo", [], "", ""), [TextNode("bar"), CloseTag, CloseTag]);
    RunFirst(s, Fresh.(stack := [Xml, Foo]), TextNode("bar"), [CloseTag, CloseTag]);
    RunFirst(s, Fresh.(stack := [Xml, Foo.(text := "bar")]), CloseTag, [CloseTag]);
    RunFirst(s, Fresh.(stack := [Xml.(props := FooGroup)]), CloseTag, []);
  }

  /** CDATA inside a lone open element, in a mode without pseudo-children, extends its text and
      marks it. */
  lemma CDataIntoOnlyFrame(s: Settings, f: Frame, t: string)
    requires !s.opts.explicitChildren
    ensures OnCData(s.opts, [f], t) == [f.(text := f.text + t, cdata := true)]
  {
    assert !WantsTextChild(s.opts, t);
    var r := OnCData(s.opts, [f], t);
    assert r[0] == OnText(s.opts, [f], t)[0].(cdata := true);
  }

  /** The frame of a lone element holding one CDATA section `t`. */
  function CDataFrame(s: Settings, name: string, t: string): Frame {
    OpenFrame(s, name, [], "", "").(text := t, cdata := true)
  }

  /** A document of one element holding one CDATA section, with neither validator nor child
      reshaping, ends with that element's value. */
  lemma LoneCData(s: Settings, name: string, t: string)
    requires s.opts.validator.None? && !s.opts.explicitChildren && s.opts.explicitRoot
    requires NodeValue(s, CDataFrame(s, name, t)).Some?
    ensures var f := CDataFrame(s, name, t);
      Run(s, Fresh, [OpenTag(name, [], "", ""), CDataNode(t), CloseTag, EndOfInput]).signals
        == [End(Obj(map[f.name := NodeValue(s, f).value]))]
  {
    var f := CDataFrame(s, name, t);
    var rest := [CDataNode(t), CloseTag, EndOfInput];
    CloseThenEnd(s, f);
    CDataIntoOpened(s, name, t);
    RunFirst(s, Fresh.(stack := [OpenFrame(s, name, [], "", "")]), CDataNode(t), rest[1..]);
    OpenFirst(s, name);
    RunFirst(s, Fresh, OpenTag(name, [], "", ""), rest);
  }

  /** Closing the only open element and then ending the input. */
  lemma CloseThenEnd(s: Settings, f: Frame)
    requires s.opts.validator.None? && !s.opts.explicitChildren && s.opts.explicitRoot
    requires NodeValue(s, f).Some?
    ensures Run(s, Fresh.(stack := [f]), [CloseTag, EndOfInput]).signals == [End(Obj(map[f.name := NodeValue(s, f).value]))]
  {
    CloseOnly(s, f);
    RunFirst(s, Fresh.(stack := [f]), CloseTag, [EndOfInput]);
    EndAfterEnd(s, Ended(f.name, NodeValue(s, f).value));
  }

  /** A CDATA section inside a freshly opened element. */
  lemma CDataIntoOpened(s: Settings, name: string, t: string)
    requires !s.opts.explicitChildren
    ensures Step(s, Fresh.(stack := [OpenFrame(s, name, [], "", "")]), CDataNode(t))
      == Outcome(Fresh.(stack := [CDataFrame(s, name, t)]), [])
  {
    var g := OpenFrame(s, name, [], "", "");
    CDataIntoOnlyFrame(s, g, t);
    assert g.text + t == t;
  }

  lemma EmptyCDataValue(edition: Edition)
    ensures var f := CDataFrame(DefaultSettings(edition), "Label", "");
      f.name == "Label" && NodeValue(DefaultSettings(edition), f) == Some(EmptyStr(edition, None))
  {
    var s := DefaultSettings(edition);
    assert Rest(s.opts, s.xmlnskey, CDataFrame(s, "Label", "")) == map[];
  }

  /** If the tokenizer reports the empty CDATA section of `<Label><![CDATA[]]></Label>`, the
      element gives `''` in `index.js`. */
  lemma EmptyCDataCurrent()
    ensures Run(CurrentDefaults, Fresh, [OpenTag("Label", [], "", ""), CDataNode(""), CloseTag, EndOfInput]).signals
      == [End(Obj(map["Label" := Str("")]))]
  {
    EmptyCDataValue(Current);
    LoneCData(CurrentDefaults, "Label", "");
  }

  /** If the tokenizer reports that empty section, `lib/xml2js.js`, whose `emptyStr` starts out
      undefined, gives `undefined`. A tokenizer that reports no callback for an empty section
      leaves a blank element instead, which gives `''` in both copies; `TrimmedSpaceCDataLegacy`
      shows the difference without depending on that callback. */
  lemma EmptyCDataLegacy()
    ensures Run(DefaultSettings(Legacy), Fresh, [OpenTag("Label", [], "", ""), CDataNode(""), CloseTag, EndOfInput]).signals
      == [End(Obj(map["Label" := Undefined]))]
  {
    EmptyCDataValue(Legacy);
    LoneCData(DefaultSettings(Legacy), "Label", "");
  }

  lemma SpaceCDataValue()
    ensures var f := CDataFrame(CurrentDefaults, "t", " ");
      f.name == "t" && NodeValue(CurrentDefaults, f) == Some(Str(" "))
  {
    var s := CurrentDefaults;
    var f := CDataFrame(s, "t", " ");
    assert Rest(s.opts, s.xmlnskey, f) == map[];
    assert PrepareText(s.opts, " ") == " ";
    TextOnlyElement(s, f);
  }

  /** A CDATA section holding only a space keeps the space. */
  lemma SpaceCData()
    ensures Run(CurrentDefaults, Fresh, [OpenTag("t", [], "", ""), CDataNode(" "), CloseTag, EndOfInput]).signals
      == [End(Obj(map["t" := Str(" ")]))]
  {
    SpaceCDataValue();
    LoneCData(CurrentDefaults, "t", " ");
  }

  /** The defaults with `trim` on. */
  function Trimming(edition: Edition): Settings {
    Derive(Defaults.(trim := true), edition)
  }

  /** A CDATA section is kept even when blank, and `trim` then empties it, so the element has
      no keys and becomes `emptyStr`. */
  lemma TrimmedSpaceCDataValue(edition: Edition)
    ensures var f := CDataFrame(Trimming(edition), "t", " ");
      f.name == "t" && NodeValue(Trimming(edition), f) == Some(EmptyStr(edition, None))
  {
    var s := Trimming(edition);
    var f := CDataFrame(s, "t", " ");
    assert Rest(s.opts, s.xmlnskey, f) == map[];
    assert PrepareText(s.opts, " ") == "" by {
      assert Trim(" ") == "" by { assert IsBlank(" "); }
    }
    TextOnlyElement(s, f);
  }

  /** `<t><![CDATA[ ]]></t>` with `trim: true` gives `''` in `index.js`. */
  lemma TrimmedSpaceCDataCurrent()
    ensures Run(Trimming(Current), Fresh, [OpenTag("t", [], "", ""), CDataNode(" "), CloseTag, EndOfInput]).signals
      == [End(Obj(map["t" := Str("")]))]
  {
    TrimmedSpaceCDataValue(Current);
    LoneCData(Trimming(Current), "t", " ");
  }

  /** The same document gives `undefined` in `lib/xml2js.js`. */
  lemma TrimmedSpaceCDataLegacy()
    ensures Run(Trimming(Legacy), Fresh, [OpenTag("t", [], "", ""), CDataNode(" "), CloseTag, EndOfInput]).signals
      == [End(Obj(map["t" := Undefined]))]
  {
    TrimmedSpaceCDataValue(Legacy);
    LoneCData(Trimming(Legacy), "t", " ");
  }

  const NullTag: Settings := Derive(Defaults.(emptyTag := Null), Current)

  lemma NullTagValue()
    ensures var f := OpenFrame(NullTag, "e", [], "", "");
      f.name == "e" && NodeValue(NullTag, f) == Some(Null)
  {
    assert Rest(NullTag.opts, NullTag.xmlnskey, OpenFrame(NullTag, "e", [], "", "")) == map[];
  }

  /** With `emptyTag: null` an empty element becomes `null`. */
  lemma EmptyTagNull()
    ensures Run(NullTag, Fresh, [OpenTag("e", [], "", ""), CloseTag, EndOfInput]).signals
      == [End(Obj(map["e" := Null]))]
  {
    LoneElement(NullTag, "e");
    NullTagValue();
  }

  /** Text inside a lone open element, in a mode without pseudo-children, extends its text. */
  lemma TextIntoOnlyFrame(s: Settings, f: Frame, t: string)
    requires !s.opts.explicitChildren
    ensures OnText(s.opts, [f], t) == [f.(text := f.text + t)]
  {
    assert !WantsTextChild(s.opts, t);
  }

  /** The frame of a lone element holding the text `t`. */
  function TextFrame(s: Settings, name: string, t: string): Frame {
    OpenFrame(s, name, [], "", "").(text := t)
  }

  /** The steps of a lone element holding one text node, up to its close. */
  lemma LoneTextOpen(s: Settings, name: string, t: string, rest: seq<Event>)
    requires !s.opts.explicitChildren
    ensures Run(s, Fresh, [OpenTag(name, [], "", ""), TextNode(t)] + rest).signals
      == Run(s, Fresh.(stack := [TextFrame(s, name, t)]), rest).signals
  {
    var g := OpenFrame(s, name, [], "", "");
    OpenFirst(s, name);
    TextIntoOnlyFrame(s, g, t);
    assert g.text + t == t;
    assert Step(s, Fresh.(stack := [g]), TextNode(t)) == Outcome(Fresh.(stack := [TextFrame(s, name, t)]), []);
    assert [OpenTag(name, [], "", ""), TextNode(t)] + rest == [OpenTag(name, [], "", "")] + ([TextNode(t)] + rest);
    RunFirst(s, Fresh, OpenTag(name, [], "", ""), [TextNode(t)] + rest);
    RunFirst(s, Fresh.(stack := [g]), TextNode(t), rest);
  }

  /** The parser whose value processor is `parseBooleans`, in either copy of the class. */
  function Booleans(edition: Edition): Settings {
    Derive(Defaults.(valueProcessors := [ParseBooleansValue]), edition)
  }

  /** As written, the boolean that `<flag>true</flag>` becomes counts as empty, so it is
      replaced by the initial `emptyStr`. */
  lemma BooleanTextValue(edition: Edition)
    ensures var f := TextFrame(Booleans(edition), "flag", "true");
      f.name == "flag" && NodeValue(Booleans(edition), f) == Some(EmptyStr(edition, None))
  {
    var s := Booleans(edition);
    var f := TextFrame(s, "flag", "true");
    assert !IsBlank("true") by { assert "true"[0] == 't'; }
    assert Rest(s.opts, s.xmlnskey, f) == map[];
    AsWrittenDropsBooleans();
    assert s.opts == Defaults.(valueProcessors := [ParseBooleansValue]);
  }

  /** `<flag>true</flag>` with `parseBooleans` ends with `{flag: ''}` in `index.js` rather than
      `{flag: true}`. */
  lemma BooleanTextDropped()
    ensures Run(Booleans(Current), Fresh, [OpenTag("flag", [], "", ""), TextNode("true"), CloseTag, EndOfInput]).signals
      == [End(Obj(map["flag" := Str("")]))]
  {
    var s := Booleans(Current);
    var f := TextFrame(s, "flag", "true");
    BooleanTextValue(Current);
    LoneTextOpen(s, "flag", "true", [CloseTag, EndOfInput]);
    CloseOnly(s, f);
    RunFirst(s, Fresh.(stack := [f]), CloseTag, [EndOfInput]);
    EndAfterEnd(s, Ended(f.name, Str("")));
  }

  /** ... and with `{flag: undefined}` in `lib/xml2js.js`. */
  lemma BooleanTextDroppedLegacy()
    ensures Run(Booleans(Legacy), Fresh, [OpenTag("flag", [], "", ""), TextNode("true"), CloseTag, EndOfInput]).signals
      == [End(Obj(map["flag" := Undefined]))]
  {
    var s := Booleans(Legacy);
    var f := TextFrame(s, "flag", "true");
    BooleanTextValue(Legacy);
    LoneTextOpen(s, "flag", "true", [CloseTag, EndOfInput]);
    CloseOnly(s, f);
    RunFirst(s, Fresh.(stack := [f]), CloseTag, [EndOfInput]);
    EndAfterEnd(s, Ended(f.name, Undefined));
  }

  /** A parser whose value processor turns every text into `null`. */
  const Nulling: Settings := Derive(Defaults.(valueProcessors := [(v: Value) => Null]), Current)

  lemma NullValue()
    ensures NodeValue(Nulling, TextFrame(Nulling, "e", "x")) == None
  {
    var s := Nulling;
    var f := TextFrame(s, "e", "x");
    assert !IsBlank("x") by { assert "x"[0] == 'x'; }
    assert Rest(s.opts, s.xmlnskey, f) == map[];
    assert ProcessName(s.opts.valueProcessors, Str(PrepareText(s.opts, "x")))
      == ProcessName(s.opts.valueProcessors[1..], Null);
  }

  /** A value processor returning `null` makes `Object.keys` throw when the element closes: the
      exception is reported and the run stops, so the end of input emits nothing. */
  lemma NullValueFaults()
    ensures Run(Nulling, Fresh, [OpenTag("e", [], "", ""), TextNode("x"), CloseTag, EndOfInput]).signals
      == [Error(Fault)]
  {
    LoneTextOpen(Nulling, "e", "x", [CloseTag, EndOfInput]);
    NullClose();
  }

  lemma NullClose()
    ensures Run(Nulling, Fresh.(stack := [TextFrame(Nulling, "e", "x")]), [CloseTag, EndOfInput]).signals == [Error(Fault)]
  {
    var s := Nulling;
    var st := Fresh.(stack := [TextFrame(s, "e", "x")]);
    NullValue();
    assert Step(s, st, CloseTag) == Fail(st);
    RunFirst(s, st, CloseTag, [EndOfInput]);
  }

  /** The validator of the repository's validation test: it throws for `/validationerror`. */
  const Rejecting: Validator := (path, current, value) =>
    if path == "/validationerror" then Reject("Validation error!") else Accept(value)

  const Validating: Settings := Derive(Defaults.(validator := Some(Rejecting)), Current)

  lemma RejectingRejects()
    ensures var f := OpenFrame(Validating, "validationerror", [], "", "");
      && NodeValue(Validating, f).Some?
      && Validated(Validating, [f], NodeValue(Validating, f).value).1 == Some("Validation error!")
  {
    var f := OpenFrame(Validating, "validationerror", [], "", "");
    assert f.name == "validationerror";
    XPathOfRoot("validationerror");
  }

  /** A validator that throws for `/validationerror` makes the callback receive that error. */
  lemma ValidationErrorDelivered()
    ensures Deliver(Run(Validating, Fresh, [OpenTag("validationerror", [], "", ""), CloseTag, EndOfInput]).signals)
      == Some(Error(Rejected("Validation error!")))
  {
    var s := Validating;
    var f := OpenFrame(s, "validationerror", [], "", "");
    OpenFirst(s, "validationerror");
    RejectingRejects();
    RejectionReportedFirst(s, Fresh.(stack := [f]));
    RunFirst(s, Fresh, OpenTag("validationerror", [], "", ""), [CloseTag, EndOfInput]);
    RunFirst(s, Fresh.(stack := [f]), CloseTag, [EndOfInput]);
  }

  /** An unclosed root: the tokenizer's complaint is reported, and the end of input that
      follows still emits `end` with `null`, which no callback receives. */
  lemma UnclosedRoot()
    ensures Run(CurrentDefaults, Fresh, [OpenTag("test", [], "", ""), TokenizerError("Unclosed root tag"), EndOfInput]).signals
      == [Error(Malformed("Unclosed root tag")), End(Null)]
  {
  }

  /** What a strict tokenizer does with a stray `</a>`: it reports the unmatched closing tag as an
      error, passes the tag on as text, which no open element takes, and goes on; so the error
      comes first and the end of input still emits `end` with null. */
  lemma StrayCloseTag()
    ensures Run(CurrentDefaults, Fresh, [TokenizerError("Unmatched closing tag: a"), TextNode("</a>"), EndOfInput]).signals
      == [Error(Malformed("Unmatched closing tag: a")), End(Null)]
  {
  }

  /** A document without elements ends with `null`. */
  lemma NoElements()
    ensures Run(CurrentDefaults, Fresh, [EndOfInput]).signals == [End(Null)]
  {
  }

  /** A close callback with no open element. A strict tokenizer never sends one (it reports an
      unmatched closing tag as an error instead, see `StrayCloseTag`), but if it did, `_closeTag`
      would throw on the missing frame; the exception is reported once and the run stops, so the
      end of input that follows emits nothing. */
  lemma StrayClose()
    ensures Run(CurrentDefaults, Fresh, [CloseTag, EndOfInput]).signals == [Error(Fault)]
  {
  }

  /** A blank input ends with `null` without reaching the tokenizer, and a missing one fails. */
  lemma BlankAndMissingInput(tokenize: string -> seq<Event>)
    ensures ParseString(CurrentDefaults, Some(" "), tokenize) == [End(Null)]
    ensures ParseString(CurrentDefaults, None, tokenize) == [Error(MissingInput)]
  {
    assert IsBlank(" ");
  }

  /** `parseBooleans` on the words of the repository's processor tests that become booleans. */
  lemma ParseBooleansExamples()
    ensures ParseBooleans("true") == Bool(true) && ParseBooleans("True") == Bool(true)
    ensures ParseBooleans("TRUE") == Bool(true) && ParseBooleans("false") == Bool(false)
    ensures ParseBooleans("False") == Bool(false) && ParseBooleans("FALSE") == Bool(false)
  {
    TrueWord('t', 'r', 'u', 'e');
    TrueWord('T', 'r', 'u', 'e');
    TrueWord('T', 'R', 'U', 'E');
    FalseWord('f', 'a', 'l', 's', 'e');
    FalseWord('F', 'a', 'l', 's', 'e');
    FalseWord('F', 'A', 'L', 'S', 'E');
  }

  /** A four-letter word that lower-cases to `true`, one letter at a time. */
  lemma TrueWord(c0: char, c1: char, c2: char, c3: char)
    requires LowerChar(c0) == 't' && LowerChar(c1) == 'r' && LowerChar(c2) == 'u' && LowerChar(c3) == 'e'
    ensures ParseBooleans([c0, c1, c2, c3]) == Bool(true)
  {
    assert Lower([c0, c1, c2, c3]) == "true";
  }

  /** A five-letter word that lower-cases to `false`, one letter at a time. */
  lemma FalseWord(c0: char, c1: char, c2: char, c3: char, c4: char)
    requires LowerChar(c0) == 'f' && LowerChar(c1) == 'a' && LowerChar(c2) == 'l'
    requires LowerChar(c3) == 's' && LowerChar(c4) == 'e'
    ensures ParseBooleans([c0, c1, c2, c3, c4]) == Bool(false)
  {
    assert Lower([c0, c1, c2, c3, c4]) == "false";
  }

  /** ... and the words that stay strings. */
  lemma ParseBooleansKeepsOthers()
    ensures ParseBooleans("truex") == Str("truex") && ParseBooleans("xtrue") == Str("xtrue")
    ensures ParseBooleans("x") == Str("x") && ParseBooleans("") == Str("")
  {
    assert Lower("xtrue")[0] == 'x';
  }

  /** The other processors on the strings of the repository's processor tests. */
  lemma NameProcessorExamples()
    ensures Normalize("ABc") == "abc"
    ensures FirstCharLowerCase("ThiS") == "thiS"
  {
    assert Lower("ABc") == "abc";
  }

  /** A prefix goes and a namespace declaration stays. */
  lemma StripPrefixExamples()
    ensures StripPrefix("xmlns:a") == "xmlns:a"
    ensures StripPrefix("p:x") == "x"
  {
    assert StartsWith("xmlns:a", "xmlns");
    var s := "p:x";
    assert !StartsWith(s, "xmlns");
    LineEndIs(s, 3);
    assert s[..3] == s;
    assert LastIndexOf(s, ':') == Some(1);
  }
}

=== FILE: text.dfy ===
/** String utilities with JavaScript's meaning: the `\s` character class, `String.prototype.trim`,
    the `/\s{2,}/g` collapse used by the `normalize` option, and ASCII case mapping. */
module Text {

  /** JavaScript's `\s` (and the set `trim` strips): WhiteSpace and LineTerminator code points. */
  predicate IsSpace(c: char) {
    || c == ' ' || c == '\t' || c == '\n' || c == '\r' || c == '\U{0B}' || c == '\U{0C}'
    || c == '\U{A0}' || c == '\U{1680}' || ('\U{2000}' <= c <= '\U{200A}')
    || c == '\U{2028}' || c == '\U{2029}' || c == '\U{202F}' || c == '\U{205F}'
    || c == '\U{3000}' || c == '\U{FEFF}'
  }

  /** The characters a regular-expression `.` does not match. */
  predicate IsLineTerminator(c: char) {
    c == '\n' || c == '\r' || c == '\U{2028}' || c == '\U{2029}'
  }

  /** `/^\s*$/.test(s)`: empty or whitespace only. */
  predicate IsBlank(s: string) {
    forall i :: 0 <= i < |s| ==> IsSpace(s[i])
  }

  /** Neither starts nor ends with whitespace. */
  predicate IsTrimmed(s: string) {
    |s| == 0 || (!IsSpace(s[0]) && !IsSpace(s[|s| - 1]))
  }

  /** No two whitespace characters are adjacent. */
  predicate NoDoubleSpace(s: string) {
    forall i :: 0 <= i < |s| - 1 ==> !IsSpace(s[i]) || !IsSpace(s[i + 1])
  }

  /** The non-whitespace characters of `s`, in order: what whitespace handling must preserve. */
  function NonSpace(s: string): string {
    if |s| == 0 then []
    else if IsSpace(s[0]) then NonSpace(s[1..])
    else [s[0]] + NonSpace(s[1..])
  }

  lemma {:induction false} NonSpaceAppend(a: string, b: string)
    ensures NonSpace(a + b) == NonSpace(a) + NonSpace(b)
  {
    if |a| > 0 {
      assert (a + b)[1..] == a[1..] + b;
      NonSpaceAppend(a[1..], b);
    } else {
      assert a + b == b;
    }
  }

  /** A string is blank exactly when it has no non-whitespace character. */
  lemma {:induction false} BlankIffNoNonSpace(s: string)
    ensures IsBlank(s) <==> NonSpace(s) == []
  {
    if |s| > 0 {
      BlankIffNoNonSpace(s[1..]);
      assert IsBlank(s) <==> IsSpace(s[0]) && IsBlank(s[1..]) by {
        if IsSpace(s[0]) && IsBlank(s[1..]) {
          forall i | 0 <= i < |s| ensures IsSpace(s[i]) {
            if i > 0 { assert s[i] == s[1..][i - 1]; }
          }
        }
      }
    }
  }

  /** The length of the whitespace run at the start of `s`. */
  function SpaceRun(s: string): (n: nat)
    ensures n <= |s|
    ensures IsBlank(s[..n])
    ensures n == |s| || !IsSpace(s[n])
  {
    if |s| > 0 && IsSpace(s[0]) then
      var m := SpaceRun(s[1..]);
      assert s[..m + 1] == [s[0]] + s[1..][..m];
      m + 1
    else 0
  }

  /** The length of the whitespace run at the end of `s`. */
  function TrailRun(s: string): (n: nat)
    ensures n <= |s|
    ensures IsBlank(s[|s| - n..])
    ensures n == |s| || !IsSpace(s[|s| - n - 1])
  {
    if |s| > 0 && IsSpace(s[|s| - 1]) then
      var p := s[..|s| - 1];
      var m := TrailRun(p);
      assert s[|s| - (m + 1)..] == p[|p| - m..] + [s[|s| - 1]];
      m + 1
    else 0
  }

  /** Where the text `trim` keeps begins: the length of the leading whitespace. The trimming
      proofs see only its bound, which keeps the recursive facts about `SpaceRun` out of them. */
  function TrimOffset(s: string): (a: nat)
    ensures a <= |s|
  {
    SpaceRun(s)
  }

  /** Where the text `trim` keeps ends. */
  function TrimLimit(s: string): (b: nat)
    ensures TrimOffset(s) <= b <= |s|
    ensures IsBlank(s[b..])
  {
    var a := SpaceRun(s);
    var n := TrailRun(s[a..]);
    assert s[a + (|s| - a - n)..] == s[a..][|s| - a - n..];
    |s| - n
  }

  /** `s.trim()`: the slice of `s` between its leading and trailing whitespace. */
  function Trim(s: string): (r: string)
    ensures IsTrimmed(r)
    ensures NonSpace(r) == NonSpace(s)
    ensures |r| == 0 <==> IsBlank(s)
    ensures IsTrimmed(s) ==> r == s
    ensures IsBlank(s[..TrimOffset(s)]) && IsBlank(s[TrimLimit(s)..])
    ensures s == s[..TrimOffset(s)] + r + s[TrimLimit(s)..]
  {
    ThreeParts(s, TrimOffset(s), TrimLimit(s));
    TrimKeepsNonSpace(s);
    TrimShape(s);
    s[TrimOffset(s)..TrimLimit(s)]
  }

  /** What `trim` keeps starts and ends with a non-space character, and trimmed text is kept
      whole. */
  lemma TrimShape(s: string)
    ensures IsTrimmed(s[TrimOffset(s)..TrimLimit(s)])
    ensures IsTrimmed(s) ==> TrimOffset(s) == 0 && TrimLimit(s) == |s|
  {
    var a := SpaceRun(s);
    var t := s[a..];
    var n := TrailRun(t);
    var b := TrimLimit(s);
    assert b == |s| - n;
    var r := s[a..b];
    assert r == t[..|t| - n];
    if |r| > 0 {
      assert r[0] == t[0];
      assert r[|r| - 1] == t[|t| - n - 1];
    }
    if IsTrimmed(s) && |s| > 0 {
      assert !IsSpace(s[0]);
      assert a == 0;
      assert t == s;
      assert !IsSpace(t[|t| - 1]);
      assert n == 0;
    }
  }

  lemma TrimKeepsNonSpace(s: string)
    ensures NonSpace(s[TrimOffset(s)..TrimLimit(s)]) == NonSpace(s)
    ensures TrimOffset(s) == TrimLimit(s) <==> IsBlank(s)
  {
    var a := TrimOffset(s);
    var b := TrimLimit(s);
    ThreeParts(s, a, b);
    DropBlankEnds(s[..a], s[a..b], s[b..]);
    BlankIffNoNonSpace(s[a..b]);
    BlankIffNoNonSpace(s);
  }

  lemma ThreeParts(s: string, a: nat, b: nat)
    requires a <= b <= |s|
    ensures s[..a] + s[a..b] + s[b..] == s
  {
    assert s[..b] == s[..a] + s[a..b];
    assert s == s[..b] + s[b..];
  }

  /** Whitespace on either side adds no non-space character. */
  lemma DropBlankEnds(p: string, r: string, q: string)
    requires IsBlank(p) && IsBlank(q)
    ensures NonSpace(p + r + q) == NonSpace(r)
  {
    BlankIffNoNonSpace(p);
    BlankIffNoNonSpace(q);
    NonSpaceAppend(p, r);
    NonSpaceAppend(p + r, q);
    assert NonSpace(p + r + q) == [] + NonSpace(r) + [];
  }

  /** A whitespace run at the front of `a + t` covers a blank `a` and continues into `t`, and
      stops inside `a` wherever it stops in `a`. */
  lemma {:induction false} SpaceRunAppend(a: string, t: string)
    ensures IsBlank(a) ==> SpaceRun(a + t) == |a| + SpaceRun(t)
    ensures SpaceRun(a) < |a| ==> SpaceRun(a + t) == SpaceRun(a)
    decreases |a|
  {
    if |a| > 0 {
      assert (a + t)[0] == a[0];
      assert (a + t)[1..] == a[1..] + t;
      SpaceRunAppend(a[1..], t);
    } else {
      assert a + t == t;
    }
  }

  /** A whitespace run at the end of `t + q` covers a blank `q` and continues into `t`. */
  lemma {:induction false} TrailRunAppend(t: string, q: string)
    requires IsBlank(q)
    ensures TrailRun(t + q) == TrailRun(t) + |q|
    decreases |q|
  {
    if |q| > 0 {
      var s := t + q;
      assert s[..|s| - 1] == t + q[..|q| - 1];
      assert s[|s| - 1] == q[|q| - 1];
      TrailRunAppend(t, q[..|q| - 1]);
    } else {
      assert t + q == t;
    }
  }

  /** `trim` is determined by its contract: whitespace, trimmed text, whitespace trims to that
      text. */
  lemma TrimUnique(p: string, m: string, q: string)
    requires IsBlank(p) && IsTrimmed(m) && IsBlank(q)
    ensures Trim(p + m + q) == m
  {
    var s := p + m + q;
    if |m| == 0 {
      assert s == p + q;
      assert IsBlank(s) by {
        forall i | 0 <= i < |s| ensures IsSpace(s[i]) {
          if i >= |p| { assert s[i] == q[i - |p|]; }
        }
      }
    } else {
      SpaceRunAppend(p, m + q);
      assert p + (m + q) == s;
      assert SpaceRun(m + q) == 0 by { assert (m + q)[0] == m[0]; }
      assert s[|p|..] == m + q;
      TrailRunAppend(m, q);
      assert TrailRun(m) == 0;
      assert s[|p|..|p| + |m|] == m;
    }
  }

  /** A blank string of two or more characters collapses to one space; a shorter one is kept. */
  lemma CollapseBlank(s: string)
    requires IsBlank(s)
    ensures |s| >= 2 ==> CollapseRuns(s) == " "
    ensures |s| < 2 ==> CollapseRuns(s) == s
  {
    if |s| >= 2 {
      SpaceRunAppend(s, []);
      assert s + [] == s;
      assert s[|s|..] == [];
    } else {
      assert NoDoubleSpace(s);
    }
  }

  /** A non-space character splits the collapse: each side collapses on its own. */
  lemma {:induction false} CollapseSplit(a: string, c: char, b: string)
    requires !IsSpace(c)
    ensures CollapseRuns(a + [c] + b) == CollapseRuns(a) + [c] + CollapseRuns(b)
    decreases |a|
  {
    if |a| == 0 {
      var s := a + [c] + b;
      assert s == [c] + b && s[1..] == b;
    } else if IsSpace(a[0]) && SpaceRun(a) >= 2 {
      CollapseSplit(a[SpaceRun(a)..], c, b);
      CollapseSplitRun(a, c, b);
    } else {
      CollapseSplit(a[1..], c, b);
      CollapseSplitChar(a, c, b);
    }
  }

  /** `CollapseSplit` when `a` starts with a run of two or more whitespace characters. */
  lemma CollapseSplitRun(a: string, c: char, b: string)
    requires !IsSpace(c) && |a| > 0 && IsSpace(a[0]) && SpaceRun(a) >= 2
    requires CollapseRuns(a[SpaceRun(a)..] + [c] + b) == CollapseRuns(a[SpaceRun(a)..]) + [c] + CollapseRuns(b)
    ensures CollapseRuns(a + [c] + b) == CollapseRuns(a) + [c] + CollapseRuns(b)
  {
    CollapseRunFront(a, c, b);
    CollapseFront(a);
    Regroup([' '], CollapseRuns(a[SpaceRun(a)..]), c, CollapseRuns(b));
  }

  lemma CollapseRunFront(a: string, c: char, b: string)
    requires !IsSpace(c) && |a| > 0 && IsSpace(a[0]) && SpaceRun(a) >= 2
    ensures CollapseRuns(a + [c] + b) == [' '] + CollapseRuns(a[SpaceRun(a)..] + [c] + b)
  {
    var s := a + [c] + b;
    var n := SpaceRun(a);
    assert s[n..] == a[n..] + [c] + b;
    SpaceRunBeforeNonSpace(a, c, b);
    assert CollapseRuns(s) == [' '] + CollapseRuns(s[n..]);
  }

  /** `CollapseSplit` when the first character of `a` is kept. */
  lemma CollapseSplitChar(a: string, c: char, b: string)
    requires !IsSpace(c) && |a| > 0 && !(IsSpace(a[0]) && SpaceRun(a) >= 2)
    requires CollapseRuns(a[1..] + [c] + b) == CollapseRuns(a[1..]) + [c] + CollapseRuns(b)
    ensures CollapseRuns(a + [c] + b) == CollapseRuns(a) + [c] + CollapseRuns(b)
  {
    CollapseCharFront(a, c, b);
    CollapseFront(a);
    Regroup([a[0]], CollapseRuns(a[1..]), c, CollapseRuns(b));
  }

  lemma CollapseCharFront(a: string, c: char, b: string)
    requires !IsSpace(c) && |a| > 0 && !(IsSpace(a[0]) && SpaceRun(a) >= 2)
    ensures CollapseRuns(a + [c] + b) == [a[0]] + CollapseRuns(a[1..] + [c] + b)
  {
    var s := a + [c] + b;
    assert s[1..] == a[1..] + [c] + b;
    SpaceRunBeforeNonSpace(a, c, b);
    assert CollapseRuns(s) == [s[0]] + CollapseRuns(s[1..]);
  }

  lemma Regroup(h: string, x: string, c: char, y: string)
    ensures h + (x + [c] + y) == (h + x) + [c] + y
  {
  }

  /** A non-space character ends the leading whitespace run. */
  lemma SpaceRunBeforeNonSpace(a: string, c: char, b: string)
    requires !IsSpace(c) && |a| > 0
    ensures SpaceRun(a + [c] + b) == SpaceRun(a) && (a + [c] + b)[0] == a[0]
  {
    assert a + [c] + b == a + ([c] + b);
    SpaceRunAppend(a, [c] + b);
    assert SpaceRun([c] + b) == 0;
    if SpaceRun(a) == |a| {
      assert a[..|a|] == a;
    }
  }

  /** The first step of the collapse. */
  lemma CollapseFront(s: string)
    requires |s| > 0
    ensures IsSpace(s[0]) && SpaceRun(s) >= 2 ==> CollapseRuns(s) == [' '] + CollapseRuns(s[SpaceRun(s)..])
    ensures !(IsSpace(s[0]) && SpaceRun(s) >= 2) ==> CollapseRuns(s) == [s[0]] + CollapseRuns(s[1..])
  {
  }

  /** `s.replace(/\s{2,}/g, ' ')`: every maximal run of two or more whitespace characters
      becomes one space; a lone whitespace character is kept as it is. */
  function CollapseRuns(s: string): (r: string)
    ensures NonSpace(r) == NonSpace(s)
    ensures NoDoubleSpace(r)
    ensures |r| <= |s|
    ensures |r| == 0 <==> |s| == 0
    ensures |s| > 0 ==> (IsSpace(r[0]) <==> IsSpace(s[0]))
    ensures NoDoubleSpace(s) ==> r == s
    decreases |s|
  {
    if |s| == 0 then []
    else if IsSpace(s[0]) && SpaceRun(s) >= 2 then
      var rest := CollapseRuns(s[SpaceRun(s)..]);
      CollapseRunStep(s, rest);
      [' '] + rest
    else
      var rest := CollapseRuns(s[1..]);
      CollapseCharStep(s, rest);
      [s[0]] + rest
  }

  /** A run of two or more whitespace characters becomes one space in front of the collapsed
      remainder. */
  lemma CollapseRunStep(s: string, rest: string)
    requires |s| > 0 && IsSpace(s[0]) && SpaceRun(s) >= 2
    requires NonSpace(rest) == NonSpace(s[SpaceRun(s)..]) && NoDoubleSpace(rest)
    requires |rest| <= |s| - SpaceRun(s)
    requires SpaceRun(s) < |s| ==> |rest| > 0 && (IsSpace(rest[0]) <==> IsSpace(s[SpaceRun(s)]))
    ensures NonSpace([' '] + rest) == NonSpace(s)
    ensures NoDoubleSpace([' '] + rest)
    ensures !NoDoubleSpace(s)
  {
    var n := SpaceRun(s);
    DropLeadingBlank(s, n);
    assert NonSpace([' '] + rest) == NonSpace(rest) by { assert ([' '] + rest)[1..] == rest; }
    assert IsSpace(s[1]) by { assert s[1] == s[..n][1]; }
    SpaceBeforeNonSpace(rest);
  }

  /** Dropping a blank prefix keeps the non-space characters. */
  lemma DropLeadingBlank(s: string, n: nat)
    requires n <= |s| && IsBlank(s[..n])
    ensures NonSpace(s[n..]) == NonSpace(s)
  {
    var p, q := s[..n], s[n..];
    assert s == p + q;
    NonSpaceAppend(p, q);
    BlankIffNoNonSpace(p);
  }

  /** One space in front of text that does not start with whitespace adds no double space. */
  lemma SpaceBeforeNonSpace(rest: string)
    requires NoDoubleSpace(rest) && (|rest| == 0 || !IsSpace(rest[0]))
    ensures NoDoubleSpace([' '] + rest)
  {
    var r := [' '] + rest;
    forall k | 0 <= k < |r| - 1 ensures !IsSpace(r[k]) || !IsSpace(r[k + 1]) {
      if k > 0 { assert r[k] == rest[k - 1] && r[k + 1] == rest[k]; }
    }
  }

  /** Any other first character is kept in front of the collapsed remainder. */
  lemma CollapseCharStep(s: string, rest: string)
    requires |s| > 0 && !(IsSpace(s[0]) && SpaceRun(s) >= 2)
    requires NonSpace(rest) == NonSpace(s[1..]) && NoDoubleSpace(rest)
    requires |rest| <= |s| - 1 && (|rest| == 0 <==> |s| == 1)
    requires |s| > 1 ==> (IsSpace(rest[0]) <==> IsSpace(s[1]))
    requires NoDoubleSpace(s[1..]) ==> rest == s[1..]
    ensures NonSpace([s[0]] + rest) == NonSpace(s)
    ensures NoDoubleSpace([s[0]] + rest)
    ensures NoDoubleSpace(s) ==> [s[0]] + rest == s
  {
    var r := [s[0]] + rest;
    assert r[1..] == rest;
    assert s == [s[0]] + s[1..];
    if IsSpace(s[0]) && |s| > 1 {
      assert !IsSpace(s[1]) by { assert SpaceRun(s) == 1 + SpaceRun(s[1..]); }
    }
    forall k | 0 <= k < |r| - 1 ensures !IsSpace(r[k]) || !IsSpace(r[k + 1]) {
      if k > 0 { assert r[k] == rest[k - 1] && r[k + 1] == rest[k]; }
    }
    if NoDoubleSpace(s) {
      SliceNoDoubleSpace(s, 1, |s|);
    }
  }

  /** A slice of a string without adjacent whitespace has none either. */
  lemma SliceNoDoubleSpace(s: string, a: nat, b: nat)
    requires a <= b <= |s| && NoDoubleSpace(s)
    ensures NoDoubleSpace(s[a..b])
  {
    forall i | 0 <= i < b - a - 1 ensures !IsSpace(s[a..b][i]) || !IsSpace(s[a..b][i + 1]) {
      assert s[a..b][i] == s[a + i] && s[a..b][i + 1] == s[a + i + 1];
    }
  }

  /** What the `normalize` option does to text: collapse whitespace runs, then trim. */
  function NormalizeSpace(s: string): (r: string)
    ensures IsTrimmed(r) && NoDoubleSpace(r)
    ensures NonSpace(r) == NonSpace(s)
    ensures |r| == 0 <==> IsBlank(s)
  {
    NormalizeFacts(s);
    Trim(CollapseRuns(s))
  }

  lemma NormalizeFacts(s: string)
    ensures NoDoubleSpace(Trim(CollapseRuns(s)))
    ensures IsBlank(CollapseRuns(s)) <==> IsBlank(s)
  {
    var c := CollapseRuns(s);
    SliceNoDoubleSpace(c, TrimOffset(c), TrimLimit(c));
    BlankIffNoNonSpace(c);
    BlankIffNoNonSpace(s);
  }

  /** Normalizing is idempotent: normalized text is a fixed point. */
  lemma NormalizeSpaceIdempotent(s: string)
    ensures NormalizeSpace(NormalizeSpace(s)) == NormalizeSpace(s)
  {
  }

  /** `c.toLowerCase()` restricted to ASCII letters. */
  function LowerChar(c: char): (r: char)
    ensures 'A' <= c <= 'Z' ==> 'a' <= r <= 'z' && r as int == c as int + 32
    ensures !('A' <= c <= 'Z') ==> r == c
  {
    if 'A' <= c <= 'Z' then (c as int + 32) as char else c
  }

  /** `s.toLowerCase()` on ASCII letters; every other character is kept. */
  function Lower(s: string): (r: string)
    ensures |r| == |s|
    ensures forall i :: 0 <= i < |s| ==> r[i] == LowerChar(s[i])
  {
    if |s| == 0 then [] else [LowerChar(s[0])] + Lower(s[1..])
  }

  /** No backslash is directly followed by `n`. */
  predicate NoEscapedNewline(s: string) {
    forall i :: 0 <= i < |s| - 1 ==> !(s[i] == '\\' && s[i + 1] == 'n')
  }

  /** `text.replace(/\\n/g, '')`: removes each literal backslash-n pair, scanning left to right. */
  function RemoveEscapedNewlines(s: string): (r: string)
    ensures |r| <= |s|
    ensures NoEscapedNewline(s) ==> r == s
    ensures '\\' !in s ==> r == s
  {
    if |s| >= 2 && s[0] == '\\' && s[1] == 'n' then
      var r := RemoveEscapedNewlines(s[2..]);
      assert s == [s[0], s[1]] + s[2..];
      r
    else if |s| == 0 then []
    else
      var r := RemoveEscapedNewlines(s[1..]);
      assert s == [s[0]] + s[1..];
      assert NoEscapedNewline(s) ==> NoEscapedNewline(s[1..]) by {
        if NoEscapedNewline(s) {
          forall i | 0 <= i < |s[1..]| - 1 ensures !(s[1..][i] == '\\' && s[1..][i + 1] == 'n') {
            assert s[1..][i] == s[i + 1] && s[1..][i + 1] == s[i + 2];
          }
        }
      }
      [s[0]] + r
  }

  /** The removal works piece by piece wherever no pair straddles the cut. */
  lemma {:induction false} RemoveEscapedNewlinesAppend(a: string, b: string)
    requires |a| == 0 || |b| == 0 || a[|a| - 1] != '\\' || b[0] != 'n'
    ensures RemoveEscapedNewlines(a + b) == RemoveEscapedNewlines(a) + RemoveEscapedNewlines(b)
    decreases |a|
  {
    if |a| == 0 {
      assert a + b == b;
    } else {
      var n := if |a| >= 2 && a[0] == '\\' && a[1] == 'n' then 2 else 1;
      var c, rest := a[..n], a[n..];
      SplitAt(a, n);
      Concat3(c, rest, b);
      RemoveEscapedNewlinesAppend(rest, b);
      RemoveFront(c, rest + b);
      RemoveFront(c, rest);
      Concat3(RemoveEscapedNewlines(c), RemoveEscapedNewlines(rest), RemoveEscapedNewlines(b));
    }
  }

  lemma SplitAt<T>(x: seq<T>, n: nat)
    requires n <= |x|
    ensures x == x[..n] + x[n..]
  {
  }

  lemma Concat3<T>(x: seq<T>, y: seq<T>, z: seq<T>)
    ensures (x + y) + z == x + (y + z)
  {
  }

  /** A leading pair, or a leading character that does not open one, is removed on its own. */
  lemma RemoveFront(c: string, t: string)
    requires c == "\\n" || (|c| == 1 && (c[0] != '\\' || |t| == 0 || t[0] != 'n'))
    ensures RemoveEscapedNewlines(c + t) == RemoveEscapedNewlines(c) + RemoveEscapedNewlines(t)
  {
    var s := c + t;
    if c == "\\n" {
      assert RemoveEscapedNewlines(c) == [] by {
        assert c[2..] == [];
      }
      assert RemoveEscapedNewlines(s) == RemoveEscapedNewlines(t) by {
        assert s[0] == '\\' && s[1] == 'n' && s[2..] == t;
      }
    } else {
      assert RemoveEscapedNewlines(c) == c by {
        assert c[1..] == [];
      }
      assert RemoveEscapedNewlines(s) == c + RemoveEscapedNewlines(t) by {
        assert s[0] == c[0] && s[1..] == t;
        assert |t| > 0 ==> s[1] == t[0];
        assert c == [s[0]];
      }
    }
  }

  /** Each pair goes, and the text around it is treated on its own: with the identity on text
      without pairs this determines the removal. */
  lemma RemoveEscapedNewlinesPair(a: string, b: string)
    ensures RemoveEscapedNewlines(a + "\\n" + b) == RemoveEscapedNewlines(a) + RemoveEscapedNewlines(b)
  {
    var e := "\\n";
    assert RemoveEscapedNewlines(e) == [] by {
      assert e[0] == '\\' && e[1] == 'n' && e[2..] == [];
    }
    assert RemoveEscapedNewlines(a + e) == RemoveEscapedNewlines(a) by {
      RemoveEscapedNewlinesAppend(a, e);
    }
    assert RemoveEscapedNewlines(a + e + b) == RemoveEscapedNewlines(a + e) + RemoveEscapedNewlines(b) by {
      assert (a + e)[|a + e| - 1] == 'n';
      RemoveEscapedNewlinesAppend(a + e, b);
    }
  }
}

=== FILE: values.dfy ===
/** The JavaScript values the tree builder produces and consumes, as immutable data. */
module Values {

  /** The conventional Some/None datatype, used for slots that may be absent. */
  datatype Option<+T> = None | Some(value: T) {

    /** The value in Some, or the given default for None. */
    function GetOr(default: T): T {
      match this
      case Some(v) => v
      case None => default
    }
  }

  /** A value of the built tree. Objects are string-keyed maps; the insertion order of a
      JavaScript object's keys is not part of this model (order that matters is carried by
      arrays). `Bool` only arises from a value processor such as `parseBooleans`. */
  datatype Value =
    | Undefined
    | Null
    | Bool(b: bool)
    | Str(s: string)
    | Arr(items: seq<Value>)
    | Obj(fields: map<string, Value>)

  /** `typeof v === 'object'`: true for objects, arrays and null. */
  predicate IsObjectType(v: Value) {
    v.Null? || v.Arr? || v.Obj?
  }

  /** A value without content: the empty string, the empty array or the empty object, the values
      for which `Object.keys(v).length === 0` and which are not booleans or numbers. */
  predicate IsKeyless(v: Value) {
    (v.Str? && |v.s| == 0) || (v.Arr? && |v.items| == 0) || (v.Obj? && |v.fields| == 0)
  }

  /** `Object.keys(v).length`, or None where `Object.keys` throws (null and undefined). A string
      has one key per character, an array one per element, an object one per field, and a
      boolean none. */
  function KeyCount(v: Value): (r: Option<nat>)
    ensures r.None? <==> v.Undefined? || v.Null?
    ensures v.Bool? ==> r == Some(0)
    ensures r.Some? && !v.Bool? ==> (r.value == 0 <==> IsKeyless(v))
  {
    match v
    case Undefined => None
    case Null => None
    case Bool(_) => Some(0)
    case Str(s) => Some(|s|)
    case Arr(items) => Some(|items|)
    case Obj(fields) => Some(|fields|)
  }

  /** The elements a value contributes when it is turned into an array (`instanceof Array`). */
  function AsItems(v: Value): (r: seq<Value>)
    ensures v.Arr? ==> r == v.items
    ensures !v.Arr? ==> r == [v]
  {
    if v.Arr? then v.items else [v]
  }

  /** The decimal digit for 0..9. */
  function Digit(d: nat): (c: char)
    requires d < 10
    ensures '0' <= c <= '9' && c as int - '0' as int == d
  {
    ('0' as int + d) as char
  }

  /** The decimal spelling of a natural number, as JavaScript writes an array index key. */
  function NatToString(n: nat): (r: string)
    ensures |r| > 0
    ensures forall i :: 0 <= i < |r| ==> '0' <= r[i] <= '9'
    ensures n < 10 <==> |r| == 1
  {
    if n < 10 then [Digit(n)] else NatToString(n / 10) + [Digit(n % 10)]
  }

  /** Different indices have different names. */
  lemma {:induction false} NatToStringInjective(a: nat, b: nat)
    requires NatToString(a) == NatToString(b)
    ensures a == b
    decreases a
  {
    var r := NatToString(a);
    if a >= 10 && b >= 10 {
      assert r[|r| - 1] == Digit(a % 10) == Digit(b % 10);
      assert NatToString(a / 10) == r[..|r| - 1] == NatToString(b / 10);
      NatToStringInjective(a / 10, b / 10);
    } else if a < 10 && b < 10 {
      assert r[0] == Digit(a) == Digit(b);
    }
  }

  /** `Object.assign({}, arr)`: an object whose keys are the array's index names, each holding
      the item at that index. */
  function IndexKeyed(items: seq<Value>): (m: map<string, Value>)
    ensures forall i :: 0 <= i < |items| ==> NatToString(i) in m && m[NatToString(i)] == items[i]
    ensures forall k :: k in m ==> exists i :: 0 <= i < |items| && k == NatToString(i)
  {
    forall a: nat, b: nat | NatToString(a) == NatToString(b) ensures a == b {
      NatToStringInjective(a, b);
    }
    map i | 0 <= i < |items| :: NatToString(i) := items[i]
  }
}
